=== FILE: README.md ===
# Portfolio chat: a Dafny model of its answering core

The portfolio site answers visitors' questions in a chat panel without a
language model. Its core has four parts, and each is a Dafny module here:

- **QaCorpus / QaData** (`src/lib/qa-data.ts`): the fixed table of 21
  question/answer/keyword records. It also holds `findBestMatch`, which
  scores every record against the lower-cased, trimmed query and keeps the
  first record with the strictly highest positive score. `getSuggestedQuestions`
  draws follow-up questions from the records that were not excluded, in
  shuffled order.
- **ChatRoute** (`src/app/api/chat/route.ts`): the `POST` handler.
  - A body that does not parse, or a crash while matching, gives a 500 reply.
  - A blank last message gives a 400 reply.
  - With no match, the reply is the default text with five suggestions.
  - With a match, the reply is the record's answer with up to three suggestions.
    These exclude the matched record and every record an earlier user turn
    matched.
- **ChatFallback** (`src/components/chat/chat.tsx`, non-visual parts): the
  local fallback table and `findFallbackAnswer`, which tries its keys first
  and then fifteen keyword rules. It also covers which branch `submitQuery`
  takes for a query (an exact preset, else the local fallback answer, else a
  direct request to the assistant) and how `onError` reports a failed
  request.
- **ConfigParser** (`src/lib/config-parser.ts`): the derivations of contact
  links, profile, skill categories, project cards, preset replies and the
  internship text from the portfolio configuration.

Two support modules are shared by all of these. **Strings** holds the
JavaScript string operations the code relies on: `toLowerCase`, `trim`,
`split(/\s+/)`, `includes` and `join`. **Maybe** is an option type.

Some behaviour is modelled as the code does it:

- A whitespace-only query scores 5 on every record, because `includes("")`
  holds for every stripped question. The matcher therefore returns the
  first record for it (`QaData.BlankMatchesFirst`). `POST` rejects a blank last
  message before matching. A blank *earlier* user turn still counts as
  having asked the first record (`ChatRoute.BlankTurnExcludesFirst`).
- A user turn without content makes the match path throw. The reply is then
  the 500 error.
- Presets are looked up by the exact, unnormalized query. The fallback table
  is looked up by the lower-cased, trimmed query.
- The shuffle in `getSuggestedQuestions` is a permutation passed in as a
  parameter. The route takes one permutation for every list length.

## Model

| member | source | states |
|---|---|---|
| Strings.ToLower | src/lib/qa-data.ts:118 | lower-casing keeps the length, turns each upper-case letter into its own lower-case letter and leaves every other character as it was |
| Strings.ToLowerIdempotent | src/lib/qa-data.ts:118 | lower-casing an already lower-cased string changes nothing |
| Strings.ToLowerConcat | src/lib/qa-data.ts:135 | lower-casing distributes over concatenation |
| Strings.Trim | src/lib/qa-data.ts:118 | the result neither starts nor ends with whitespace, and the input is the result padded with whitespace on both sides |
| Strings.TrimUnique | src/lib/qa-data.ts:118 | any trimmed core that the input pads is the result of trim |
| Strings.TrimIdempotent | src/lib/qa-data.ts:118 | trimming twice is trimming once |
| Strings.TrimEmptyIff | src/app/api/chat/route.ts:14 | `trim()` gives the empty string exactly when the input is all whitespace |
| Strings.Normalize | src/lib/qa-data.ts:118 | the normalized query is the lower-cased query with its leading and trailing whitespace removed: it is trimmed, has no upper-case letter, and the lower-cased query is it padded with whitespace |
| Strings.Contains | src/lib/qa-data.ts:135 | `includes`: a prefix is always included, and an included piece is no longer than the string |
| Strings.ContainsIff | src/lib/qa-data.ts:135 | `includes` holds exactly when the piece occurs at some position |
| Strings.ContainsEmpty | src/lib/qa-data.ts:145 | every string includes the empty string |
| Strings.ContainedInEmpty | src/components/chat/chat.tsx:115 | the empty string includes only the empty string |
| Strings.ContainsInfix | src/lib/qa-data.ts:135 | a string includes each of its infixes |
| Strings.ContainsTrans | src/components/chat/chat.tsx:115 | inclusion is transitive |
| Strings.Split | src/lib/qa-data.ts:122-123 | `split(/\s+/)` yields at least one piece, and no piece holds whitespace |
| Strings.SplitKeepsContent | src/lib/qa-data.ts:122-123 | the pieces concatenated are the input with its whitespace removed |
| Strings.SplitTrimmedHasNoEmptyPiece | src/lib/qa-data.ts:122-123 | a non-empty trimmed string splits into non-empty words only |
| Strings.SplitJoinRoundTrip | src/lib/qa-data.ts:122-123 | words joined by single spaces split back into the same words |
| Strings.Join | src/lib/config-parser.ts:153 | `join`: no parts give "", one part gives that part, and the first part starts the result |
| Strings.JoinAppend | src/lib/config-parser.ts:153 | joining one more part appends one separator and then that part, which with the empty and one-part cases fixes `join` |
| Strings.JoinLength | src/lib/config-parser.ts:153 | the joined length is the parts' total length plus one separator length per neighbouring pair |
| Strings.JoinContainsParts | src/lib/config-parser.ts:153 | every part occurs in the joined string |
| QaCorpus.CorpusRecords | src/lib/qa-data.ts:8-114 | the corpus has 21 records, each pairing the question, answer and keyword list at its position |
| QaCorpus.QuestionsDistinct | src/lib/qa-data.ts:8-114 | no two records share a question |
| QaCorpus.NoEmptyKeyword | src/lib/qa-data.ts:8-114 | no keyword is the empty string |
| QaCorpus.RepeatedKeywords | src/lib/qa-data.ts:8-114 | "company" and "tech" each appear twice in one record's keyword list |
| QaCorpus.CorpusWellFormed | src/lib/qa-data.ts:8-114 | the corpus has distinct questions and only non-empty keywords |
| QaData.KeepTokens | src/lib/qa-data.ts:124 | a word is kept exactly when it is longer than two characters and not a stop word |
| QaData.Tokens | src/lib/qa-data.ts:121-124 | the tokens are exactly the split words of the normalized query that pass the filter |
| QaData.TokenRelatedEmptyKeyword | src/lib/qa-data.ts:138 | an empty keyword is related exactly when the query has a token |
| QaData.KeywordPoints | src/lib/qa-data.ts:134-141 | a keyword earns at most 3 points: at least 2 exactly when the query includes it, and an odd score exactly when a token and the keyword include one another |
| QaData.KeywordScore | src/lib/qa-data.ts:134-141 | the keyword score is at most 3 per keyword |
| QaData.KeywordScoreAppend | src/lib/qa-data.ts:134-141 | the keyword score is additive over the keyword list |
| QaData.KeywordScoreCountsEach | src/lib/qa-data.ts:134-141 | each keyword occurrence contributes its own points |
| QaData.RepeatedKeywordCountsTwice | src/lib/qa-data.ts:134-141 | a keyword listed twice scores twice |
| QaData.KeywordHitScore | src/lib/qa-data.ts:134-147 | a record with a keyword the query includes scores at least 2 above its question bonus |
| QaData.StripGlyph | src/lib/qa-data.ts:144 | the stripped question is the lower-cased suffix of the question left after the leading glyph |
| QaData.StripGlyphOfGlyphed | src/lib/qa-data.ts:144 | a glyph without whitespace followed by one whitespace character is removed, and the rest is lower-cased |
| QaData.StripGlyphUnchanged | src/lib/qa-data.ts:144 | a question that starts with whitespace, or has none, is only lower-cased |
| QaData.QuestionBonus | src/lib/qa-data.ts:145-147 | the question bonus is 0 or 5 |
| QaData.Score | src/lib/qa-data.ts:131-147 | a record scores at most 3 per keyword plus 5, and at least its question bonus |
| QaData.Scores | src/lib/qa-data.ts:130-153 | one score per record, in corpus order |
| QaData.Scan | src/lib/qa-data.ts:127-153 | after n records the loop holds the maximum score, at the first index that reaches it, and no index while that maximum is 0 |
| QaData.BestIndex | src/lib/qa-data.ts:149-156 | no index when every score is 0, otherwise the first index with the highest score |
| QaData.FindBestMatchIndex | src/lib/qa-data.ts:117-157 | no match exactly when every record scores 0, otherwise the first best record's index |
| QaData.FindBestMatch | src/lib/qa-data.ts:117-157 | `findBestMatch` returns null exactly when every record scores 0, and otherwise a first-best record |
| QaData.FirstBestUnique | src/lib/qa-data.ts:149-152 | at most one index is the first best |
| QaData.FindBestMatchReturnsFirstBest | src/lib/qa-data.ts:149-156 | the first-best record is the one returned |
| QaData.TieGoesToEarlier | src/lib/qa-data.ts:149 | a later record tying an earlier one's score is never returned |
| QaData.MatchIgnoresCaseAndPadding | src/lib/qa-data.ts:118 | queries with the same normalized form get the same match |
| QaData.MatchOnKeyword | src/lib/qa-data.ts:135-137 | a query including some keyword has a match |
| QaData.MatchOnQuestion | src/lib/qa-data.ts:144-147 | a query including some stripped question has a match |
| QaData.BlankScore | src/lib/qa-data.ts:144-147 | a blank query scores exactly 5 on every record with non-empty keywords |
| QaData.BlankKeywordScore | src/lib/qa-data.ts:134-141 | non-empty keywords earn nothing against a blank query |
| QaData.BlankMatchesFirst | src/lib/qa-data.ts:117-157 | a blank query matches the first record |
| QaData.Available | src/lib/qa-data.ts:161 | the available indices are exactly those below the corpus size and not excluded, in increasing order |
| QaData.SuggestedIndices | src/lib/qa-data.ts:160-166 | min(count, available) distinct, non-excluded indices |
| QaData.GetSuggestedQuestions | src/lib/qa-data.ts:160-166 | min(count, available) records, each at a non-excluded index; the count is 3 when none is given |
| QaData.AvailableCount | src/lib/qa-data.ts:161 | the number available is the corpus size less the excluded indices below it |
| QaData.PermutationOnto | src/lib/qa-data.ts:164 | a shuffle of the available list takes every position |
| QaData.AllExcludedGivesEmpty | src/lib/qa-data.ts:160-166 | with every index excluded there is nothing to suggest |
| QaData.SuggestedIndexAt | src/lib/qa-data.ts:164-165 | suggestion k is the available index the shuffle moves to position k |
| QaData.SuggestionsCoverAvailable | src/lib/qa-data.ts:160-166 | a count that covers the available records suggests every one of them |
| QaData.SuggestionsDistinct | src/lib/qa-data.ts:160-166 | over distinct questions, no suggestion repeats |
| ChatRoute.AskedIndicesAppend | src/app/api/chat/route.ts:46-57 | appending a message folds it into the asked set last: an assistant turn changes nothing, and a user turn adds its match's index |
| ChatRoute.PostIgnoresLastRole | src/app/api/chat/route.ts:11-12 | the query is the last message's content whatever its role: ending the transcript with a user turn or an assistant turn with the same content gives the same reply |
| ChatRoute.MatchedIndex | src/app/api/chat/route.ts:49-51 | a text with no best match has no index; otherwise the index holds a record with the best match's question |
| ChatRoute.IndexOfQuestion | src/app/api/chat/route.ts:51 | `findIndex`: the first position holding the question, and none only when no position does |
| ChatRoute.AskedIndices | src/app/api/chat/route.ts:46-57 | the asked set fails to exist (the handler throws) exactly when a user turn lacks content |
| ChatRoute.AskedIndicesSpec | src/app/api/chat/route.ts:46-57 | an index is asked exactly when some user turn's best match sits there |
| ChatRoute.Suggest | src/app/api/chat/route.ts:65-72 | `getSuggestedQuestions(...).map(...)`: min(count, available) suggestions, each the question and answer of a non-excluded record |
| ChatRoute.Excluded | src/app/api/chat/route.ts:59-63 | the excluded set is the asked indices plus the current match's index |
| ChatRoute.Post | src/app/api/chat/route.ts:6-92 | a body that does not parse gives 500, and a parsed transcript gets 400 exactly when its query is blank |
| ChatRoute.NoMatchReply | src/app/api/chat/route.ts:27-43 | without a match the reply is the default text with min(5, corpus size) suggestions |
| ChatRoute.MatchReply | src/app/api/chat/route.ts:45-77 | with a match the reply is 500 exactly when a user turn lacks content, and otherwise the record's answer with min(3, n) suggestions, where n counts the records that are neither asked nor the current match |
| ChatRoute.IndexOfOwnQuestion | src/app/api/chat/route.ts:60 | over distinct questions a record's question is found at its own index |
| ChatRoute.MatchedIndexIsBestIndex | src/app/api/chat/route.ts:49-51 | over distinct questions the matched index is the best match's position |
| ChatRoute.SuggestionOutside | src/app/api/chat/route.ts:65 | no suggestion has the question of an excluded record |
| ChatRoute.SuggestionsAvoidAsked | src/app/api/chat/route.ts:45-73 | on the match path no suggestion repeats the matched record or any record a user turn matched |
| ChatRoute.BlankTurnExcludesFirst | src/app/api/chat/route.ts:47-57 | a blank earlier user turn keeps the first record out of the suggestions |
| ChatRoute.FixedCorpusReplies | src/app/api/chat/route.ts:27-73 | over the 21 records, no match gives exactly 5 suggestions, and a match is never suggested again |
| ChatFallback.RuleKeysInTableOrder | src/components/chat/chat.tsx:121-165 | rule k answers with the k-th table entry, and there are 15 of each |
| ChatFallback.Holds | src/components/chat/chat.tsx:121-165 | a two-word conjunction holds only when both words occur, and a two-word disjunction fails only when neither does |
| ChatFallback.HoldsGrows | src/components/chat/chat.tsx:121-165 | a condition that holds for a query still holds for any text that includes the query |
| ChatFallback.FirstKeyFrom | src/components/chat/chat.tsx:114-118 | the first key in table order that the query includes, and none only when no key is included |
| ChatFallback.FirstRuleFrom | src/components/chat/chat.tsx:121-165 | the first rule whose condition holds, and none only when none holds |
| ChatFallback.FallbackIndex | src/components/chat/chat.tsx:110-168 | none exactly when no key occurs and no rule holds; a key pass decides whenever some key occurs |
| ChatFallback.FindFallbackAnswer | src/components/chat/chat.tsx:110-168 | an answer exactly when a position is found, and it is one of the table's replies |
| ChatFallback.KeyPassWins | src/components/chat/chat.tsx:114-118 | the first included key decides, whatever rules hold |
| ChatFallback.RulePassWins | src/components/chat/chat.tsx:121-165 | without a key, the first rule that holds decides, and its answer is under its key |
| ChatFallback.RulePriority | src/components/chat/chat.tsx:121-144 | 'who' with 'you' gives the first answer, and 'why' gives the hire answer when no earlier rule holds |
| ChatFallback.ConjunctiveRules | src/components/chat/chat.tsx:148-160 | rules 9 and 13 need both of their words |
| ChatFallback.ProudKeyWords | src/components/chat/chat.tsx:101 | the key of answer 9 includes 'project' and 'proud' |
| ChatFallback.YesKeyWords | src/components/chat/chat.tsx:105 | the key of answer 13 includes 'project' and 'yes' |
| ChatFallback.ProudAnswerNeedsBoth | src/components/chat/chat.tsx:148-150 | answer 9 is given only to a query including 'project' and 'proud' |
| ChatFallback.YesAnswerNeedsBoth | src/components/chat/chat.tsx:160-162 | answer 13 is given only to a query including 'project' and 'yes' |
| ChatFallback.EmptyQueryHasNoFallback | src/components/chat/chat.tsx:110-168 | the empty question finds no fallback answer |
| ChatFallback.DispatchOf | src/components/chat/chat.tsx:359-403 | blank or tool-busy queries are ignored; otherwise exact preset, then fallback, then the assistant, each exactly when the earlier ones do not apply |
| ChatFallback.Submit | src/components/chat/chat.tsx:359-403 | a blank query or a running tool leaves the page alone; otherwise earlier turns are kept, at most the question and one answer are appended, the error line clears, and loading stays on exactly when the assistant is asked |
| ChatFallback.SubmitToAssistant | src/components/chat/chat.tsx:405-418 | the same guard, then one user turn appended and loading set |
| ChatFallback.SubmitExtends | src/components/chat/chat.tsx:359-403 | submitting keeps all earlier turns, appends at most two starting with the question, and clears the error line |
| ChatFallback.PresetBeforeFallback | src/components/chat/chat.tsx:366-371 | a preset question shows its preset and leaves the transcript alone, even when the fallback would answer |
| ChatFallback.FallbackBeforeAssistant | src/components/chat/chat.tsx:374-396 | without a preset, a fallback answer is appended after the question and loading ends |
| ChatFallback.AssistantIsLastResort | src/components/chat/chat.tsx:359-403 | loading is left on only when the assistant is asked, and then exactly as `submitQueryToAI` does |
| ChatFallback.ErrorText | src/components/chat/chat.tsx:230 | the message if non-empty, else the `toString` text if non-empty, else "An error occurred"; never empty |
| ChatFallback.Classify | src/components/chat/chat.tsx:264-297 | quota exactly when the message includes 'quota', 'exceeded' or '429'; network exactly when it is not quota and includes 'network'; otherwise generic |
| ChatFallback.OnErrorIgnoresLastRole | src/components/chat/chat.tsx:234-235 | the question is the last turn's content whatever its role: a failure after a user turn or an assistant turn with the same content sets the same error line and appends the same turns |
| ChatFallback.ErrorLine | src/components/chat/chat.tsx:240-297 | the error line is cleared whenever a fallback answer stands in for the failed request |
| ChatFallback.ErrorTurns | src/components/chat/chat.tsx:240-297 | at most one turn is appended, and it is the fallback answer whenever there is one |
| ChatFallback.OnError | src/components/chat/chat.tsx:225-299 | loading ends and the preset panel stays; the transcript is kept with at most one turn appended; a fallback answer for the last turn is appended and clears the error |
| ChatFallback.OnErrorSettles | src/components/chat/chat.tsx:225-299 | a failure ends loading, keeps the preset panel and the earlier turns, appends at most one assistant turn, and clears the error exactly when a fallback answer stands in |
| ChatFallback.FallbackBeforeClassification | src/components/chat/chat.tsx:237-263 | with a fallback answer the error itself does not matter |
| ChatFallback.ClassificationOrder | src/components/chat/chat.tsx:264-298 | quota words give the quota state plus a bubble; otherwise 'network' gives the network message; otherwise "Error: " and the text |
| ChatFallback.EmptyTranscriptReportsError | src/components/chat/chat.tsx:234-299 | with no turns there is no fallback, so an error is shown |
| ConfigParser.Filter | src/lib/config-parser.ts:25 | `filter` keeps exactly the passing elements, in their order, each as many times as it occurs in the input |
| ConfigParser.FilterKeepsAll | src/lib/config-parser.ts:25 | filtering changes nothing exactly when every element passes |
| ConfigParser.GenerateContactInfo | src/lib/config-parser.ts:12-27 | name, email and handle are copied; the socials are the links with a URL, at most five, in the fixed order |
| ConfigParser.AllSocialsListed | src/lib/config-parser.ts:19-25 | with every URL set all five links appear, LinkedIn first |
| ConfigParser.NoSocialsListed | src/lib/config-parser.ts:19-25 | with no URL set there are no links |
| ConfigParser.Digits | src/lib/config-parser.ts:35 | the printed number is digits only, without a leading zero |
| ConfigParser.DecimalText | src/lib/config-parser.ts:35 | the printed integer is non-empty, starts with '-' exactly when it is negative, and is digits otherwise |
| ConfigParser.DigitsRoundTrip | src/lib/config-parser.ts:35 | the digits read back as the number |
| ConfigParser.DecimalRoundTrip | src/lib/config-parser.ts:35 | a printed integer, sign included, reads back as itself |
| ConfigParser.GenerateProfileInfo | src/lib/config-parser.ts:30-41 | the personal fields are copied, and the age text ends in " years old" |
| ConfigParser.ProfileAgeReadsBack | src/lib/config-parser.ts:35 | the age text without " years old" reads back as the configured age |
| ConfigParser.GenerateSkillsData | src/lib/config-parser.ts:44-84 | at most seven categories: exactly those with a skill, in the fixed order |
| ConfigParser.CategoryShownIffNonEmpty | src/lib/config-parser.ts:83 | each category is shown exactly when it has a skill |
| ConfigParser.CoverOf | src/lib/config-parser.ts:91 | the cover is the first image's src when it is non-empty, otherwise '/placeholder.jpg'; never empty |
| ConfigParser.CardOf | src/lib/config-parser.ts:88-91 | a card copies its project's category and title and carries the first image's src, or '/placeholder.jpg' when there is none |
| ConfigParser.GenerateProjectData | src/lib/config-parser.ts:87-94 | one card per project, in order, each carrying its project and that project's cover as its src |
| ConfigParser.CardsAppend | src/lib/config-parser.ts:88 | cards of a concatenation are the concatenated cards |
| ConfigParser.CardsInjective | src/lib/config-parser.ts:92 | different project lists give different cards |
| ConfigParser.GeneratePresetReplies | src/lib/config-parser.ts:97-134 | exactly the six fixed questions, and "Who are you?" gives the bio with the presentation tool |
| ConfigParser.SixPresetQuestions | src/lib/config-parser.ts:97-134 | the six preset questions are distinct, so there are exactly six presets |
| ConfigParser.PresetsDependOnlyOnBio | src/lib/config-parser.ts:97-134 | configurations with the same bio give the same presets |
| ConfigParser.WhoAreYouShowsBio | src/lib/config-parser.ts:103-106 | submitting "Who are you?" shows the bio and leaves the transcript alone |
| ConfigParser.GenerateInternshipInfo | src/lib/config-parser.ts:142-166 | not seeking gives the fixed sentence; seeking gives a text that includes the focus areas joined by ", " |
| ConfigParser.InternshipNamesEachFocus | src/lib/config-parser.ts:153 | when seeking, every focus area occurs in the text |

## Left out

- Unicode: whitespace is ASCII space and `\t`..`\r`, and lower-casing maps `A`-`Z` only. JavaScript's `\s`, `trim` and `toLowerCase` also cover other Unicode characters.
- QaData.KeepTokens: a word's length is counted in Unicode scalar values, but JavaScript's `length` counts UTF-16 code units. A word of two characters outside the Basic Multilingual Plane, such as two emoji, is a token in JavaScript but is dropped here. The keyword table is ASCII, so a score can differ only through a keyword that such a word includes or is included in.
- Randomness: the shuffle is any permutation passed in. The bias of sorting with `Math.random() - 0.5` is not modelled.
- QaData.GetSuggestedQuestions: the count is a natural number. A negative or fractional count and `slice` on such bounds are not modelled.
- ChatRoute.Post: a message whose content is not a string, a `null` element of `messages`, or a `messages` field that is not an array, is not modelled. Reading the `role` of a `null` element throws on the match path (a 500 reply), and a `null` last element gives the query "" (a 400 reply). The body either parses to a transcript or is the 500 path. The error text inside the 500 reply is left out.
- ChatRoute.Post: the JSON encoding, headers and `maxDuration` are left out.
- ChatFallback.DispatchOf: presets come as a map. Inherited object keys such as "constructor", which an object lookup would also find, are not modelled.
- ChatFallback: toasts, console logging, the 500 ms timer and a failing `append` are left out. Submit gives the page after the timer has fired.
- ChatFallback.Submit: on the fallback path `append` also sends the transcript to '/api/chat', as on the assistant path. That request and the handling of its reply through `onResponse` and `onError` are not modelled; only the page state the branch sets is.
- ChatFallback.OnError: both `append` calls, the one adding the fallback answer and the one adding the quota bubble, also send the transcript to '/api/chat'. That request, its reply and a second failure re-entering `onError` are not modelled; only the page state `onError` sets is.
- ChatFallback.OnError: `messages` is read as the page shows it when the error arrives. React's captured copy of an older transcript is not modelled.
- ChatFallback: the global error and rejection handlers, and `isToolInProgress` as computed from message parts, are left out. A tool that is running is a boolean input.
- ConfigParser: only the configuration fields these derivations read are declared. The configuration loader and its type are not part of this model.
- ConfigParser.GenerateProfileInfo: the age is an integer. Non-integer, very large or non-finite numbers print differently in JavaScript and are not modelled.
- ConfigParser: `generateResumeDetails` returns the `resume` field and `getConfig` the whole configuration, both unchanged. They are plain accessors with no logic, so they are left out.
- ConfigParser.GenerateInternshipInfo: the template's other fields (duration, start date, location, style, goals, contacts, availability) are assembled exactly, but the contract only states the focus list.
- Rendering, styling and animation are not behaviour and are left out.
- The corpus is never written to. Every operation here is a pure function of its inputs, so this needs no separate statement.

=== FILE: chat_fallback.dfy ===
/** The client-side logic of the chat page that does not render anything
    (src/components/chat/chat.tsx): the canned fallback matcher, the order in
    which a submitted query is served, and the classification of request
    errors. */
module ChatFallback {
  import opened Strings
  import opened Maybe
  import ChatRoute

  // ---------------------------------------------------------------------
  // The fallback table (fallbackAnswers)
  // ---------------------------------------------------------------------

  /** The keys of the fallback table, in declaration order. */
  const FallbackKeys: seq<string> := [
    "who are you",  // 0
    "what are your passions",  // 1
    "how did you get started in tech",  // 2
    "where do you see yourself in 5 years",  // 3
    "can i see your resume",  // 4
    "what makes you a valuable team member",  // 5
    "where are you working now",  // 6
    "why should i hire you",  // 7
    "what's your educational background",  // 8
    "what projects are you most proud of",  // 9
    "what are your skills",  // 10
    "how was your experience working as freelancer",  // 11
    "how can i reach you",  // 12
    "what kind of project would make you say yes immediately",  // 13
    "where are you located"  // 14
  ]

  /** The answer stored under each key, in the same order. */
  function FallbackReply(i: nat): string
    requires i < 15
  {
    match i
    case 0 => "🧑‍💻 **Who are you?**\n\nI'm Mann Gupta, a passionate Software Engineer skilled in Backend Development, AI/ML, and DevOps, focused on building scalable and intelligent systems."
    case 1 => "❤️ **What are your passions?**\n\nI love solving real-world problems using AI-driven automation, optimizing systems for efficiency and performance, and continuously exploring new technologies."
    case 2 => "💡 **How did you get started in tech?**\n\nMy journey began with curiosity about how apps work under the hood — I started coding in C++, solving problems on LeetCode, and later expanded into AI and cloud technologies, which shaped my passion for full-stack and intelligent system design."
    case 3 => "🚀 **Where do you see yourself in 5 years?**\n\nI see myself leading impactful projects as a Software Engineer or AI Systems Architect, designing scalable backend infrastructures and intelligent automation tools that make technology more adaptive and efficient."
    case 4 => "📄 **Can I see your resume?**\n\nYes! I'll be happy to share it — you can view or download my updated resume once I upload it."
    case 5 => "🤝 **What makes you a valuable team member?**\n\nI bring a strong sense of ownership, collaboration, and adaptability. I'm a fast learner who enjoys working across teams, solving complex problems, and contributing to projects that demand creativity and precision."
    case 6 => "💼 **Where are you working now?**\n\nI recently completed internships at WorkIndia, ITC Infotech, and Gush, where I worked on backend microservices, AI automation, and scalable cloud systems."
    case 7 => "🌟 **Why should I hire you?**\n\nBecause I combine technical depth with a problem-solving mindset — I design reliable systems, automate processes, and deliver measurable impact. I take initiative, adapt quickly, and always focus on optimizing results."
    case 8 => "🎓 **What's your educational background?**\n\nI'm pursuing a B.Tech in Information Technology from Rajiv Gandhi Institute of Petroleum Technology (RGIPT), with a current CGPA of 8.25/10."
    case 9 => "🧠 **What projects are you most proud of?**\n\nI'm most proud of:\n\n• **Multi-Tenant Project Management System** – a Jira-like task manager for multiple organizations.\n• **AI-Powered Course Differentiator** – identifies the best courses using AI chatbots and web scraping.\n• **Player-Ball Interaction Analysis** – applies deep learning for real-time sports analytics."
    case 10 => "⚙️ **What are your skills?**\n\n**Languages:** Python, C++, Java, JavaScript, TypeScript\n**Frameworks:** Node.js, React.js, Django, Next.js\n**AI/ML:** TensorFlow, Keras, Scikit-learn, LangChain, Agentic AI\n**Databases:** MySQL, PostgreSQL, MongoDB\n**Cloud/DevOps:** AWS (EC2, EKS, S3), Docker, Kubernetes, Jenkins, CI/CD"
    case 11 => "💻 **How was your experience working as a freelancer?**\n\nFreelancing taught me client communication, project ownership, and adaptability — I learned to deliver end-to-end solutions efficiently while maintaining quality and deadlines."
    case 12 => "📬 **How can I reach you?**\n\nYou can contact me at **manngupta923@gmail.com** or connect via [LinkedIn](https://linkedin.com/in/gupta-mann)."
    case 13 => "💭 **What kind of project would make you say \"yes\" immediately?**\n\nAny project that involves AI integration, backend optimization, or cloud automation — especially where I can solve technical challenges and build something scalable from scratch."
    case _ /* 14 */ => "📍 **Where are you located?**\n\nI'm based in Bangalore, India, and open to remote roles or relocation for the right opportunity."
  }

  /** A keyword condition over the normalized query. */
  datatype Condition =
    | Has(word: string)
    | Either(left: string, right: string)
    | Both(left: string, right: string)

  predicate Holds(c: Condition, norm: string)
    ensures Holds(c, norm) && c.Both? ==> Contains(norm, c.left) && Contains(norm, c.right)
    ensures !Holds(c, norm) && c.Either? ==> !Contains(norm, c.left) && !Contains(norm, c.right)
  {
    match c
    case Has(w) => Contains(norm, w)
    case Either(a, b) => Contains(norm, a) || Contains(norm, b)
    case Both(a, b) => Contains(norm, a) && Contains(norm, b)
  }

  /** A condition that holds for a query still holds when more text
      surrounds the query. */
  lemma HoldsGrows(c: Condition, norm: string, longer: string)
    requires Holds(c, norm) && Contains(longer, norm)
    ensures Holds(c, longer)
  {
    match c
    case Has(w) => ContainsTrans(longer, norm, w);
    case Either(a, b) =>
      if Contains(norm, a) { ContainsTrans(longer, norm, a); } else { ContainsTrans(longer, norm, b); }
    case Both(a, b) => ContainsTrans(longer, norm, a); ContainsTrans(longer, norm, b);
  }

  /** A keyword rule: when the condition holds, answer with the reply stored
      under `key`. */
  datatype Rule = Rule(when: Condition, key: string)

  /** The keyword rules, tried in this order when no key occurs in the query. */
  const Rules: seq<Rule> := [
    Rule(Both("who", "you"), "who are you"),
    Rule(Has("passion"), "what are your passions"),
    Rule(Either("started", "begin"), "how did you get started in tech"),
    Rule(Either("5 years", "future"), "where do you see yourself in 5 years"),
    Rule(Either("resume", "cv"), "can i see your resume"),
    Rule(Either("valuable", "team"), "what makes you a valuable team member"),
    Rule(Either("working", "job"), "where are you working now"),
    Rule(Either("hire", "why"), "why should i hire you"),
    Rule(Either("education", "degree"), "what's your educational background"),
    Rule(Both("project", "proud"), "what projects are you most proud of"),
    Rule(Has("skill"), "what are your skills"),
    Rule(Either("freelancer", "freelance"), "how was your experience working as freelancer"),
    Rule(Either("contact", "reach"), "how can i reach you"),
    Rule(Both("project", "yes"), "what kind of project would make you say yes immediately"),
    Rule(Either("location", "where"), "where are you located")
  ]

  /** Rule `k` answers with the `k`-th entry of the table, so a rule's
      position is the table position of its answer. */
  lemma RuleKeysInTableOrder()
    ensures |Rules| == |FallbackKeys| == 15
    ensures forall k | 0 <= k < |Rules| :: Rules[k].key == FallbackKeys[k]
  {
  }

  // ---------------------------------------------------------------------
  // findFallbackAnswer
  // ---------------------------------------------------------------------

  /** The first position at or after `k` whose key occurs in `norm`. */
  function FirstKeyFrom(keys: seq<string>, norm: string, k: nat): (r: Option<nat>)
    requires k <= |keys|
    ensures r.Some? ==> k <= r.value < |keys| && Contains(norm, keys[r.value])
    ensures r.Some? ==> forall j | k <= j < r.value :: !Contains(norm, keys[j])
    ensures r.None? <==> forall j | k <= j < |keys| :: !Contains(norm, keys[j])
    decreases |keys| - k
  {
    if k == |keys| then None
    else if Contains(norm, keys[k]) then Some(k)
    else FirstKeyFrom(keys, norm, k + 1)
  }

  /** The first position at or after `k` whose rule holds for `norm`. */
  function FirstRuleFrom(rules: seq<Rule>, norm: string, k: nat): (r: Option<nat>)
    requires k <= |rules|
    ensures r.Some? ==> k <= r.value < |rules| && Holds(rules[r.value].when, norm)
    ensures r.Some? ==> forall j | k <= j < r.value :: !Holds(rules[j].when, norm)
    ensures r.None? <==> forall j | k <= j < |rules| :: !Holds(rules[j].when, norm)
    decreases |rules| - k
  {
    if k == |rules| then None
    else if Holds(rules[k].when, norm) then Some(k)
    else FirstRuleFrom(rules, norm, k + 1)
  }

  /** Some key of the table occurs in `norm`. */
  predicate AnyKey(norm: string) {
    exists i | 0 <= i < |FallbackKeys| :: Contains(norm, FallbackKeys[i])
  }

  /** The table position of the fallback answer for `q`: the first key that
      occurs in the normalized query, otherwise the first rule that holds. */
  function FallbackIndex(q: string): (r: Option<nat>)
    ensures r.Some? ==> r.value < |FallbackKeys|
    ensures r.None? <==> !AnyKey(Normalize(q)) && forall k | 0 <= k < |Rules| :: !Holds(Rules[k].when, Normalize(q))
    ensures AnyKey(Normalize(q)) ==> r == FirstKeyFrom(FallbackKeys, Normalize(q), 0)
    ensures !AnyKey(Normalize(q)) ==> r == FirstRuleFrom(Rules, Normalize(q), 0)
  {
    var norm := Normalize(q);
    match FirstKeyFrom(FallbackKeys, norm, 0)
    case Some(i) => Some(i)
    case None => FirstRuleFrom(Rules, norm, 0)
  }

  /** `findFallbackAnswer`: the reply stored at the fallback position. */
  function FindFallbackAnswer(q: string): (r: Option<string>)
    ensures r.None? <==> FallbackIndex(q).None?
    ensures r.Some? ==> exists i | 0 <= i < 15 :: r.value == FallbackReply(i)
  {
    RuleKeysInTableOrder();
    match FallbackIndex(q)
    case None => None
    case Some(i) => Some(FallbackReply(i))
  }

  /** The direct pass: the first key (in table order) that occurs in the
      query decides, whatever rules hold. */
  lemma KeyPassWins(q: string, i: nat)
    requires i < |FallbackKeys| && Contains(Normalize(q), FallbackKeys[i])
    requires forall j | 0 <= j < i :: !Contains(Normalize(q), FallbackKeys[j])
    ensures FallbackIndex(q) == Some(i)
    ensures FindFallbackAnswer(q) == Some(FallbackReply(i))
  {
    var norm := Normalize(q);
    var r := FirstKeyFrom(FallbackKeys, norm, 0);
    assert r.Some?;
  }

  /** The rule pass: without any key in the query, the first rule that holds
      decides, and its answer is the reply under the rule's key. */
  lemma RulePassWins(q: string, k: nat)
    requires !AnyKey(Normalize(q))
    requires k < |Rules| && Holds(Rules[k].when, Normalize(q))
    requires forall j | 0 <= j < k :: !Holds(Rules[j].when, Normalize(q))
    ensures FallbackIndex(q) == Some(k)
    ensures FallbackKeys[FallbackIndex(q).value] == Rules[k].key
  {
    RuleKeysInTableOrder();
    var r := FirstRuleFrom(Rules, Normalize(q), 0);
    assert r.Some?;
  }

  /** Examples of the rule priority: 'who' with 'you' beats 'hire' or 'why',
      which in turn beats 'location' or 'where'. */
  lemma RulePriority(q: string)
    requires !AnyKey(Normalize(q))
    ensures Contains(Normalize(q), "who") && Contains(Normalize(q), "you") ==>
      FallbackIndex(q) == Some(0)
    ensures (forall j | 0 <= j < 7 :: !Holds(Rules[j].when, Normalize(q))) && Contains(Normalize(q), "why") ==>
      FallbackIndex(q) == Some(7)
  {
    var norm := Normalize(q);
    if Contains(norm, "who") && Contains(norm, "you") {
      RulePassWins(q, 0);
    }
    if (forall j | 0 <= j < 7 :: !Holds(Rules[j].when, norm)) && Contains(norm, "why") {
      RulePassWins(q, 7);
    }
  }

  /** The two rules that need both of their words. */
  lemma ConjunctiveRules()
    ensures Rules[9].when == Both("project", "proud")
    ensures Rules[13].when == Both("project", "yes")
  {
  }

  /** The key of answer 9 contains both words of its rule. */
  lemma ProudKeyWords()
    ensures Contains(FallbackKeys[9], "project") && Contains(FallbackKeys[9], "proud")
  {
    var key := "what projects are you most proud of";
    assert FallbackKeys[9] == key;
    assert key[..12] == "what project";
    assert key[5..12] == "project";
    ContainsAt(key, "project", 5);
    assert key[27..32] == "proud";
    ContainsAt(key, "proud", 27);
  }

  /** The key of answer 13 contains both words of its rule. */
  lemma YesKeyWords()
    ensures Contains(FallbackKeys[13], "project") && Contains(FallbackKeys[13], "yes")
  {
    var key := "what kind of project would make you say yes immediately";
    assert FallbackKeys[13] == key;
    var head := "what kind of project";
    assert key[..43] == "what kind of project would make you say yes";
    assert key[..43][..20] == head;
    assert forall t | 13 <= t < 20 :: key[t] == head[t];
    assert key[13..20] == "project";
    ContainsAt(key, "project", 13);
    assert key[40..43] == "yes";
    ContainsAt(key, "yes", 40);
  }

  /** Answer 9 is given only when both 'project' and 'proud' occur: through
      the rule by its condition, and through the direct pass because the key
      itself contains both words. */
  lemma ProudAnswerNeedsBoth(q: string)
    requires FallbackIndex(q) == Some(9)
    ensures Contains(Normalize(q), "project") && Contains(Normalize(q), "proud")
  {
    var norm := Normalize(q);
    if AnyKey(norm) {
      var key := FallbackKeys[9];
      assert Contains(norm, key);
      ProudKeyWords();
      ContainsTrans(norm, key, "project");
      ContainsTrans(norm, key, "proud");
    } else {
      ConjunctiveRules();
      assert Holds(Rules[9].when, norm);
    }
  }

  /** Answer 13 is given only when both 'project' and 'yes' occur. */
  lemma YesAnswerNeedsBoth(q: string)
    requires FallbackIndex(q) == Some(13)
    ensures Contains(Normalize(q), "project") && Contains(Normalize(q), "yes")
  {
    var norm := Normalize(q);
    if AnyKey(norm) {
      var key := FallbackKeys[13];
      assert Contains(norm, key);
      YesKeyWords();
      ContainsTrans(norm, key, "project");
      ContainsTrans(norm, key, "yes");
    } else {
      ConjunctiveRules();
      assert Holds(Rules[13].when, norm);
    }
  }

  /** An empty query finds no fallback answer: every key and every rule
      word is non-empty, and the empty string contains none of them. */
  lemma EmptyQueryHasNoFallback()
    ensures FindFallbackAnswer("") == None
  {
    var norm := Normalize("");
    assert norm == [];
    forall i | 0 <= i < |FallbackKeys|
      ensures !Contains(norm, FallbackKeys[i])
    {
      ContainedInEmpty(FallbackKeys[i]);
    }
    forall k | 0 <= k < |Rules|
      ensures !Holds(Rules[k].when, norm)
    {
      match Rules[k].when
      case Has(w) => ContainedInEmpty(w);
      case Either(a, b) => ContainedInEmpty(a); ContainedInEmpty(b);
      case Both(a, b) => ContainedInEmpty(a); ContainedInEmpty(b);
    }
  }

  // ---------------------------------------------------------------------
  // submitQuery
  // ---------------------------------------------------------------------

  /** A transcript entry on the page. */
  datatype Turn = Turn(role: ChatRoute.Role, content: string)

  /** A preset reply as configured: its text and the tool it shows. */
  datatype Preset = Preset(reply: string, tool: string)

  /** The preset panel: the question asked and the reply shown. */
  datatype Shown = Shown(question: string, reply: string, tool: string)

  /** The non-visual state of the chat page. */
  datatype Page = Page(
    turns: seq<Turn>,
    shown: Option<Shown>,
    error: Option<string>,
    loading: bool)

  /** How a submitted query is served. */
  datatype Dispatch =
    | Ignored
    | ShowPreset(preset: Preset)
    | LocalAnswer(answer: string)
    | AskAssistant

  /** The order `submitQuery` tries: a blank query or one sent while a tool
      runs is ignored; an exact preset question wins; then the local
      fallback table; the dispatch is `AskAssistant` only when neither
      applies. */
  function DispatchOf(query: string, toolRunning: bool, presets: map<string, Preset>): (r: Dispatch)
    ensures r == Ignored <==> AllSpace(query) || toolRunning
    ensures r.ShowPreset? <==> !AllSpace(query) && !toolRunning && query in presets
    ensures r.ShowPreset? ==> r.preset == presets[query]
    ensures r.LocalAnswer? <==>
      !AllSpace(query) && !toolRunning && query !in presets && FindFallbackAnswer(query).Some?
    ensures r.LocalAnswer? ==> Some(r.answer) == FindFallbackAnswer(query)
    ensures r == AskAssistant <==>
      !AllSpace(query) && !toolRunning && query !in presets && FindFallbackAnswer(query).None?
  {
    TrimEmptyIff(query);
    if Trim(query) == [] || toolRunning then Ignored
    else if query in presets then ShowPreset(presets[query])
    else match FindFallbackAnswer(query)
      case Some(a) => LocalAnswer(a)
      case None => AskAssistant
  }

  /** `submitQuery`: the page once the query has been served (for a local
      answer, after its delayed reply has been appended). */
  function Submit(page: Page, query: string, toolRunning: bool, presets: map<string, Preset>): (r: Page)
    ensures page.turns <= r.turns && |r.turns| <= |page.turns| + 2
    ensures r.turns != page.turns ==> r.turns[|page.turns|] == Turn(ChatRoute.User, query)
    ensures AllSpace(query) || toolRunning ==> r == page
    ensures !(AllSpace(query) || toolRunning) ==> r.error == None && (r.loading <==> DispatchOf(query, toolRunning, presets) == AskAssistant)
  {
    match DispatchOf(query, toolRunning, presets)
    case Ignored => page
    case ShowPreset(p) =>
      page.(shown := Some(Shown(query, p.reply, p.tool)), error := None, loading := false)
    case LocalAnswer(a) =>
      Page(page.turns + [Turn(ChatRoute.User, query), Turn(ChatRoute.Assistant, a)], None, None, false)
    case AskAssistant =>
      Page(page.turns + [Turn(ChatRoute.User, query)], None, None, true)
  }

  /** `submitQueryToAI`: the same guard, but the query always goes to the
      assistant. */
  function SubmitToAssistant(page: Page, query: string, toolRunning: bool): (r: Page)
    ensures AllSpace(query) || toolRunning ==> r == page
    ensures !(AllSpace(query) || toolRunning) ==>
      r.turns == page.turns + [Turn(ChatRoute.User, query)] && r.loading && r.shown == None
  {
    TrimEmptyIff(query);
    if Trim(query) == [] || toolRunning then page
    else Page(page.turns + [Turn(ChatRoute.User, query)], None, None, true)
  }

  /** Submitting never rewrites the transcript: it keeps every earlier turn
      and appends at most the question and one answer. A served query
      clears the error line. */
  lemma SubmitExtends(page: Page, query: string, toolRunning: bool, presets: map<string, Preset>)
    ensures var r := Submit(page, query, toolRunning, presets);
      && page.turns <= r.turns
      && |r.turns| <= |page.turns| + 2
      && (r.turns != page.turns ==> r.turns[|page.turns|] == Turn(ChatRoute.User, query))
      && (DispatchOf(query, toolRunning, presets) != Ignored ==> r.error == None)
  {
  }

  /** A preset question is answered from the presets even when the fallback
      table would also answer it, and the transcript is left as it was. */
  lemma PresetBeforeFallback(page: Page, query: string, presets: map<string, Preset>)
    requires !AllSpace(query) && query in presets
    ensures var r := Submit(page, query, false, presets);
      && r.turns == page.turns
      && r.shown == Some(Shown(query, presets[query].reply, presets[query].tool))
      && !r.loading
  {
  }

  /** Without a preset, a query the fallback table answers gets that answer
      appended after the question, and the dispatch is not `AskAssistant`. */
  lemma FallbackBeforeAssistant(page: Page, query: string, presets: map<string, Preset>)
    requires !AllSpace(query) && query !in presets && FindFallbackAnswer(query).Some?
    ensures DispatchOf(query, false, presets) != AskAssistant
    ensures var r := Submit(page, query, false, presets);
      && r.turns == page.turns + [Turn(ChatRoute.User, query), Turn(ChatRoute.Assistant, FindFallbackAnswer(query).value)]
      && !r.loading
  {
  }

  /** Only a query with neither a preset nor a fallback answer is
      dispatched as `AskAssistant`, and that dispatch serves it exactly as
      `submitQueryToAI` does. */
  lemma AssistantIsLastResort(page: Page, query: string, toolRunning: bool, presets: map<string, Preset>)
    ensures Submit(page, query, toolRunning, presets).loading <==>
      DispatchOf(query, toolRunning, presets) == AskAssistant || (DispatchOf(query, toolRunning, presets) == Ignored && page.loading)
    ensures DispatchOf(query, toolRunning, presets) == AskAssistant ==>
      Submit(page, query, toolRunning, presets) == SubmitToAssistant(page, query, toolRunning)
  {
  }

  // ---------------------------------------------------------------------
  // onError
  // ---------------------------------------------------------------------

  /** What the client knows of a failed request: its `message` and what
      `toString()` gives. A missing error object is `None`. */
  datatype Failure = Failure(message: string, text: string)

  const DefaultErrorText := "An error occurred"
  const QuotaState := "quota_exhausted"
  const QuotaBubble := "⚠️ **API Quota Exhausted**\n\nFree Gemini API limit reached. Please contact Mann directly or use preset questions below."
  const NetworkText := "Network error. Please check your connection and try again."

  /** `error?.message || error?.toString() || 'An error occurred'`. */
  function ErrorText(err: Option<Failure>): (r: string)
    ensures r != []
    ensures err.Some? && err.value.message != [] ==> r == err.value.message
    ensures err.Some? && err.value.message == [] && err.value.text != [] ==> r == err.value.text
    ensures err.None? || err.value.message == err.value.text == [] ==> r == DefaultErrorText
  {
    match err
    case None => DefaultErrorText
    case Some(f) =>
      if f.message != [] then f.message
      else if f.text != [] then f.text
      else DefaultErrorText
  }

  /** The three kinds of error the page tells apart when no fallback answer
      exists. */
  datatype ErrorKind = QuotaExhausted | NetworkFailure | OtherFailure

  /** The message mentions the quota, an exceeded limit or status 429. */
  predicate QuotaWord(msg: string) {
    Contains(msg, "quota") || Contains(msg, "exceeded") || Contains(msg, "429")
  }

  /** Quota words are checked before the network word. */
  function Classify(msg: string): (r: ErrorKind)
    ensures r == QuotaExhausted <==> Contains(msg, "quota") || Contains(msg, "exceeded") || Contains(msg, "429")
    ensures r == NetworkFailure <==> r != QuotaExhausted && Contains(msg, "network")
  {
    if QuotaWord(msg) then QuotaExhausted
    else if Contains(msg, "network") then NetworkFailure
    else OtherFailure
  }

  /** The question the failed request was about: the content of the last
      turn, or the empty string. */
  function LastContent(turns: seq<Turn>): string {
    if turns == [] then [] else turns[|turns| - 1].content
  }

  /** The turn appended last is the one whose content `onError` looks up,
      whatever its role. */
  lemma LastContentOfAppend(turns: seq<Turn>, t: Turn)
    ensures LastContent(turns + [t]) == t.content
  {
  }

  /** The error line `onError` sets for a failure about `question`: none
      when a fallback answer stands in, otherwise the classified report. */
  function ErrorLine(question: string, err: Option<Failure>): (r: Option<string>)
    ensures FindFallbackAnswer(question).Some? ==> r == None
  {
    match FindFallbackAnswer(question)
    case Some(_) => None
    case None =>
      match Classify(ErrorText(err))
      case QuotaExhausted => Some(QuotaState)
      case NetworkFailure => Some(NetworkText)
      case OtherFailure => Some("Error: " + ErrorText(err))
  }

  /** The turns `onError` appends for a failure about `question`: the
      fallback answer, or the quota bubble, or nothing. */
  function ErrorTurns(question: string, err: Option<Failure>): (r: seq<Turn>)
    ensures |r| <= 1
    ensures FindFallbackAnswer(question).Some? ==> r == [Turn(ChatRoute.Assistant, FindFallbackAnswer(question).value)]
  {
    match FindFallbackAnswer(question)
    case Some(a) => [Turn(ChatRoute.Assistant, a)]
    case None =>
      if Classify(ErrorText(err)) == QuotaExhausted then [Turn(ChatRoute.Assistant, QuotaBubble)] else []
  }

  /** `onError`: the fallback answer for the last question if there is one;
      otherwise the error is classified and reported. The page is read only
      through the last turn's content. */
  function OnError(page: Page, err: Option<Failure>): (r: Page)
    ensures !r.loading && r.shown == page.shown
    ensures r.turns == page.turns || (|r.turns| == |page.turns| + 1 && r.turns[..|page.turns|] == page.turns)
    ensures FindFallbackAnswer(LastContent(page.turns)).Some? ==>
      r.turns == page.turns + [Turn(ChatRoute.Assistant, FindFallbackAnswer(LastContent(page.turns)).value)] && r.error == None
  {
    var q := LastContent(page.turns);
    var extra := ErrorTurns(q, err);
    assert extra == [] ==> page.turns + extra == page.turns;
    page.(loading := false, turns := page.turns + extra, error := ErrorLine(q, err))
  }

  /** The role of the last turn does not matter: a failure after a user
      turn and after an assistant turn with the same content sets the same
      error line and appends the same turns. */
  lemma OnErrorIgnoresLastRole(ts: seq<Turn>, c: string, shown: Option<Shown>, error: Option<string>, loading: bool, err: Option<Failure>)
    ensures var p1, p2 := Page(ts + [Turn(ChatRoute.User, c)], shown, error, loading),
                          Page(ts + [Turn(ChatRoute.Assistant, c)], shown, error, loading);
      && OnError(p1, err).error == OnError(p2, err).error
      && OnError(p1, err).turns[|p1.turns|..] == OnError(p2, err).turns[|p2.turns|..]
  {
    var p1, p2 := Page(ts + [Turn(ChatRoute.User, c)], shown, error, loading),
                  Page(ts + [Turn(ChatRoute.Assistant, c)], shown, error, loading);
    LastContentOfAppend(ts, Turn(ChatRoute.User, c));
    LastContentOfAppend(ts, Turn(ChatRoute.Assistant, c));
    assert (p1.turns + ErrorTurns(c, err))[|p1.turns|..] == ErrorTurns(c, err);
    assert (p2.turns + ErrorTurns(c, err))[|p2.turns|..] == ErrorTurns(c, err);
  }

  /** A failure always ends loading, keeps the transcript and the preset
      panel, and appends at most one assistant turn. The error line is
      cleared exactly when a fallback answer stands in. */
  lemma OnErrorSettles(page: Page, err: Option<Failure>)
    ensures var r := OnError(page, err);
      && !r.loading
      && r.shown == page.shown
      && page.turns <= r.turns
      && |r.turns| <= |page.turns| + 1
      && (r.turns != page.turns ==> r.turns[|page.turns|].role == ChatRoute.Assistant)
      && (r.error == None <==> FindFallbackAnswer(LastContent(page.turns)).Some?)
  {
    if FindFallbackAnswer(LastContent(page.turns)).None? {
      match Classify(ErrorText(err))
      case QuotaExhausted =>
      case NetworkFailure =>
      case OtherFailure =>
    }
  }

  /** The fallback answer is tried before the error is looked at: when the
      last question has one, the kind of error does not matter. */
  lemma FallbackBeforeClassification(page: Page, e1: Option<Failure>, e2: Option<Failure>)
    requires FindFallbackAnswer(LastContent(page.turns)).Some?
    ensures OnError(page, e1) == OnError(page, e2)
  {
  }

  /** Without a fallback answer the error text decides, quota words before
      the network word: a quota error adds a chat bubble, the other two only
      set the error line. */
  lemma ClassificationOrder(page: Page, err: Option<Failure>)
    requires FindFallbackAnswer(LastContent(page.turns)).None?
    ensures var msg, r := ErrorText(err), OnError(page, err);
      && (QuotaWord(msg) ==>
            r.error == Some(QuotaState) && r.turns == page.turns + [Turn(ChatRoute.Assistant, QuotaBubble)])
      && (!QuotaWord(msg) && Contains(msg, "network") ==>
            r.error == Some(NetworkText) && r.turns == page.turns)
      && (!QuotaWord(msg) && !Contains(msg, "network") ==>
            r.error == Some("Error: " + msg) && r.turns == page.turns)
  {
    match Classify(ErrorText(err))
    case QuotaExhausted =>
    case NetworkFailure =>
    case OtherFailure =>
  }

  /** An error on an empty transcript has no question to fall back on. */
  lemma EmptyTranscriptReportsError(page: Page, err: Option<Failure>)
    requires page.turns == []
    ensures OnError(page, err).error.Some?
  {
    EmptyQueryHasNoFallback();
  }
}

=== FILE: chat_route.dfy ===
/** The decision logic of the chat API's `POST` handler
    (src/app/api/chat/route.ts): the transcript arrives as a request body,
    and the handler answers with a rejection, an answer with follow-up
    suggestions, or a server error. Request parsing and response encoding
    are reduced to the values they carry. */
module ChatRoute {
  import opened Strings
  import opened Maybe
  import opened QaCorpus
  import opened QaData

  datatype Role = User | Assistant

  /** One transcript entry. A missing `content` field is `None`. */
  datatype Message = Message(role: Role, content: Option<string>)

  /** The request body: either it does not parse as JSON with a `messages`
      array, or it is the transcript. */
  datatype Request = MalformedBody | Transcript(messages: seq<Message>)

  /** A suggested follow-up as the client receives it. */
  datatype Suggestion = Suggestion(question: string, answer: string)

  /** `InvalidInput` is the 400 `invalid_input` reply, `Answer` the 200 reply,
      `ServerError` the 500 `server_error` reply. */
  datatype Response =
    | InvalidInput
    | Answer(text: string, suggestions: seq<Suggestion>)
    | ServerError

  const DefaultAnswer: string :=
    "I'm sorry, I couldn't find a specific answer to that question. Could you try rephrasing it or ask one of the suggested questions below?"

  /** Suggestions sent with the default answer. */
  const NoMatchSuggestionCount: nat := 5

  /** Suggestions sent with a matched answer. */
  const MatchSuggestionCount: nat := 3

  /** A shuffle for every list length: `shuffle(n)` reorders `0 .. n-1`. */
  ghost predicate IsShuffle(shuffle: nat -> seq<nat>) {
    forall n: nat :: IsPermutation(shuffle(n), n)
  }

  /** The query: the content of the last message whatever its role, or the
      empty string when there is no message or it has no content. */
  function QueryOf(messages: seq<Message>): string {
    if messages == [] then [] else messages[|messages| - 1].content.GetOr([])
  }

  /** `qaData.findIndex(qa => qa.question === question)`. */
  function IndexOfQuestion(corpus: seq<QAItem>, question: string): (r: Option<nat>)
    ensures r.Some? ==> r.value < |corpus| && corpus[r.value].question == question
    ensures r.Some? ==> forall j | 0 <= j < r.value :: corpus[j].question != question
    ensures r.None? <==> forall j | 0 <= j < |corpus| :: corpus[j].question != question
  {
    if corpus == [] then None
    else if corpus[0].question == question then Some(0)
    else match IndexOfQuestion(corpus[1..], question)
      case None => None
      case Some(i) => Some(i + 1)
  }

  /** The corpus index a text maps to: the position of its best match, or
      none when nothing matches. */
  function MatchedIndex(corpus: seq<QAItem>, text: string): (r: Option<nat>)
    ensures FindBestMatch(corpus, text).None? ==> r.None?
    ensures r.Some? ==> r.value < |corpus| && corpus[r.value].question == FindBestMatch(corpus, text).value.question
  {
    match FindBestMatch(corpus, text)
    case None => None
    case Some(m) => IndexOfQuestion(corpus, m.question)
  }

  /** A user message that lacks content: matching it throws. */
  predicate Unmatchable(m: Message) {
    m.role == User && m.content.None?
  }

  /** The message is a user turn whose best match sits at corpus index `i`. */
  predicate AskedAt(corpus: seq<QAItem>, m: Message, i: nat) {
    m.role == User && m.content.Some? && MatchedIndex(corpus, m.content.value) == Some(i)
  }

  /** The indices of the records matched by the user turns of the transcript,
      or none when some user turn has no content to match. */
  function AskedIndices(corpus: seq<QAItem>, messages: seq<Message>): (r: Option<set<nat>>)
    ensures r.None? <==> exists k | 0 <= k < |messages| :: Unmatchable(messages[k])
    decreases |messages|
  {
    if messages == [] then Some({})
    else
      var m := messages[0];
      assert forall k | 1 <= k < |messages| :: messages[k] == messages[1..][k - 1];
      if Unmatchable(m) then None
      else match AskedIndices(corpus, messages[1..])
        case None => None
        case Some(ids) =>
          if m.role == User && MatchedIndex(corpus, m.content.value).Some?
          then Some(ids + {MatchedIndex(corpus, m.content.value).value})
          else Some(ids)
  }

  /** The asked indices are exactly the matched indices of the user turns. */
  lemma {:induction false} AskedIndicesSpec(corpus: seq<QAItem>, messages: seq<Message>, i: nat)
    requires AskedIndices(corpus, messages).Some?
    ensures i in AskedIndices(corpus, messages).value <==>
      exists k | 0 <= k < |messages| :: AskedAt(corpus, messages[k], i)
    decreases |messages|
  {
    if messages != [] {
      var m, tail := messages[0], messages[1..];
      AskedIndicesSpec(corpus, tail, i);
      var ids := AskedIndices(corpus, tail).value;
      if i in ids {
        var k :| 0 <= k < |tail| && AskedAt(corpus, tail[k], i);
        assert messages[k + 1] == tail[k];
      }
      if exists k | 0 <= k < |messages| :: AskedAt(corpus, messages[k], i) {
        var k :| 0 <= k < |messages| && AskedAt(corpus, messages[k], i);
        if k > 0 {
          assert tail[k - 1] == messages[k];
        }
      }
    }
  }

  /** The index a user turn's match sits at; none for an assistant turn,
      a turn without content or a turn without a match. */
  function AskedHit(corpus: seq<QAItem>, m: Message): Option<nat> {
    if m.role == User && m.content.Some? then MatchedIndex(corpus, m.content.value) else None
  }

  /** Adds an optional index to an asked set that may have failed. */
  function AddHit(acc: Option<set<nat>>, h: Option<nat>): Option<set<nat>> {
    match acc
    case None => None
    case Some(ids) => if h.Some? then Some(ids + {h.value}) else Some(ids)
  }

  /** What one transcript message does to the asked set: a user turn
      without content fails, a user turn with a match adds its index, and
      anything else leaves the set as it is. */
  function AskStep(corpus: seq<QAItem>, m: Message, acc: Option<set<nat>>): Option<set<nat>> {
    if Unmatchable(m) then None else AddHit(acc, AskedHit(corpus, m))
  }

  lemma AddHitCommutes(acc: Option<set<nat>>, g: Option<nat>, h: Option<nat>)
    ensures AddHit(AddHit(acc, g), h) == AddHit(AddHit(acc, h), g)
  {
    if acc.Some? && g.Some? && h.Some? {
      assert acc.value + {g.value} + {h.value} == acc.value + {h.value} + {g.value};
    }
  }

  /** Two messages may be folded into the asked set in either order. */
  lemma AskStepCommutes(corpus: seq<QAItem>, m: Message, n: Message, acc: Option<set<nat>>)
    ensures AskStep(corpus, m, AskStep(corpus, n, acc)) == AskStep(corpus, n, AskStep(corpus, m, acc))
  {
    AddHitCommutes(acc, AskedHit(corpus, m), AskedHit(corpus, n));
  }

  /** Appending a message to the transcript folds it into the asked set
      last, so the asked set does not depend on where the message sits. */
  lemma {:induction false} AskedIndicesAppend(corpus: seq<QAItem>, ms: seq<Message>, m: Message)
    ensures AskedIndices(corpus, ms + [m]) == AskStep(corpus, m, AskedIndices(corpus, ms))
    decreases |ms|
  {
    if ms == [] {
      assert ms + [m] == [m];
      assert [m][1..] == [];
    } else {
      var xs := ms + [m];
      assert xs[0] == ms[0];
      assert xs[1..] == ms[1..] + [m];
      AskedIndicesAppend(corpus, ms[1..], m);
      assert AskedIndices(corpus, xs) == AskStep(corpus, ms[0], AskedIndices(corpus, xs[1..]));
      assert AskedIndices(corpus, ms) == AskStep(corpus, ms[0], AskedIndices(corpus, ms[1..]));
      AskStepCommutes(corpus, ms[0], m, AskedIndices(corpus, ms[1..]));
    }
  }

  /** On the match path the current match is excluded anyway, so whether
      the last turn already added it to the asked set makes no difference. */
  lemma ExcludedAbsorbsCurrent(corpus: seq<QAItem>, acc: Option<set<nat>>, m: QAItem)
    requires acc.Some?
    ensures AddHit(acc, IndexOfQuestion(corpus, m.question)).Some?
    ensures Excluded(corpus, AddHit(acc, IndexOfQuestion(corpus, m.question)).value, m) == Excluded(corpus, acc.value, m)
  {
  }

  /** The reply on the match path, stated through the asked set of the
      whole transcript. */
  lemma PostOnMatch(corpus: seq<QAItem>, messages: seq<Message>, shuffle: nat -> seq<nat>)
    requires IsShuffle(shuffle) && messages != []
    requires !AllSpace(QueryOf(messages)) && FindBestMatch(corpus, QueryOf(messages)).Some?
    ensures Post(corpus, Transcript(messages), shuffle) ==
      match AskedIndices(corpus, messages)
      case None => ServerError
      case Some(asked) =>
        Answer(FindBestMatch(corpus, QueryOf(messages)).value.answer,
          Suggest(corpus, Excluded(corpus, asked, FindBestMatch(corpus, QueryOf(messages)).value), MatchSuggestionCount, shuffle))
  {
    TrimEmptyIff(QueryOf(messages));
  }

  /** The role of the last message does not matter: the reply to a
      transcript ending in a user turn is the reply to the same transcript
      ending in an assistant turn with the same content. */
  lemma PostIgnoresLastRole(corpus: seq<QAItem>, ms: seq<Message>, c: Option<string>, shuffle: nat -> seq<nat>)
    requires IsShuffle(shuffle)
    ensures Post(corpus, Transcript(ms + [Message(User, c)]), shuffle)
         == Post(corpus, Transcript(ms + [Message(Assistant, c)]), shuffle)
  {
    var u, a := ms + [Message(User, c)], ms + [Message(Assistant, c)];
    var q := c.GetOr([]);
    assert QueryOf(u) == q && QueryOf(a) == q;
    if c.Some? && !AllSpace(q) && FindBestMatch(corpus, q).Some? {
      var m := FindBestMatch(corpus, q).value;
      PostOnMatch(corpus, u, shuffle);
      PostOnMatch(corpus, a, shuffle);
      AskedIndicesAppend(corpus, ms, Message(User, c));
      AskedIndicesAppend(corpus, ms, Message(Assistant, c));
      assert AskedHit(corpus, Message(User, c)) == IndexOfQuestion(corpus, m.question);
      if AskedIndices(corpus, ms).Some? {
        ExcludedAbsorbsCurrent(corpus, AskedIndices(corpus, ms), m);
      }
    }
  }

  /** The `{ question, answer }` objects the reply carries. */
  function ToSuggestions(items: seq<QAItem>): seq<Suggestion> {
    seq(|items|, k requires 0 <= k < |items| => Suggestion(items[k].question, items[k].answer))
  }

  /** `getSuggestedQuestions(excluded, count)` with the shuffle picked for
      the number of available records. */
  function Suggest(corpus: seq<QAItem>, excluded: set<nat>, count: nat, shuffle: nat -> seq<nat>): (r: seq<Suggestion>)
    requires IsShuffle(shuffle)
    ensures |r| == Min(count, |Available(|corpus|, excluded)|)
    ensures forall k | 0 <= k < |r| ::
      exists i | 0 <= i < |corpus| && i !in excluded :: r[k] == Suggestion(corpus[i].question, corpus[i].answer)
  {
    var perm := shuffle(|Available(|corpus|, excluded)|);
    var items := GetSuggestedQuestions(corpus, excluded, count, perm);
    var r := ToSuggestions(items);
    assert forall k | 0 <= k < |r| :: r[k] == Suggestion(items[k].question, items[k].answer);
    r
  }

  /** The exclusion set on the match path: the asked indices plus the
      current match's index. */
  function Excluded(corpus: seq<QAItem>, asked: set<nat>, current: QAItem): (r: set<nat>)
    ensures forall i: nat :: i in r <==> i in asked || IndexOfQuestion(corpus, current.question) == Some(i)
  {
    match IndexOfQuestion(corpus, current.question)
    case None => asked
    case Some(i) => asked + {i}
  }

  /** `POST`: a body that does not parse is a server error, and a blank
      query is rejected before any matching. */
  function Post(corpus: seq<QAItem>, req: Request, shuffle: nat -> seq<nat>): (r: Response)
    requires IsShuffle(shuffle)
    ensures req.MalformedBody? ==> r == ServerError
    ensures req.Transcript? ==> (r == InvalidInput <==> AllSpace(QueryOf(req.messages)))
  {
    match req
    case MalformedBody => ServerError
    case Transcript(messages) =>
      var query := QueryOf(messages);
      TrimEmptyIff(query);
      if Trim(query) == [] then InvalidInput
      else match FindBestMatch(corpus, query)
        case None =>
          Answer(DefaultAnswer, Suggest(corpus, {}, NoMatchSuggestionCount, shuffle))
        case Some(m) =>
          match AskedIndices(corpus, messages)
          case None => ServerError
          case Some(asked) =>
            Answer(m.answer, Suggest(corpus, Excluded(corpus, asked, m), MatchSuggestionCount, shuffle))
  }

  /** A query that is not blank. */
  predicate Answerable(messages: seq<Message>) {
    !AllSpace(QueryOf(messages))
  }

  /** Without a match the reply is the default text with up to five
      suggestions drawn from the whole corpus. */
  lemma NoMatchReply(corpus: seq<QAItem>, messages: seq<Message>, shuffle: nat -> seq<nat>)
    requires IsShuffle(shuffle)
    requires Answerable(messages) && FindBestMatch(corpus, QueryOf(messages)).None?
    ensures Post(corpus, Transcript(messages), shuffle).Answer?
    ensures Post(corpus, Transcript(messages), shuffle).text == DefaultAnswer
    ensures |Post(corpus, Transcript(messages), shuffle).suggestions| == Min(NoMatchSuggestionCount, |corpus|)
  {
    TrimEmptyIff(QueryOf(messages));
    AvailableCount(|corpus|, {});
    assert ExcludedBelow(|corpus|, {}) == {};
  }

  /** With a match the reply is a server error exactly when some user turn
      has no content; otherwise it is the matched record's answer with three
      suggestions, or all the records left when fewer remain outside the
      asked ones and the current match. */
  lemma MatchReply(corpus: seq<QAItem>, messages: seq<Message>, shuffle: nat -> seq<nat>)
    requires IsShuffle(shuffle)
    requires Answerable(messages) && FindBestMatch(corpus, QueryOf(messages)).Some?
    ensures Post(corpus, Transcript(messages), shuffle) == ServerError
      <==> exists k | 0 <= k < |messages| :: Unmatchable(messages[k])
    ensures Post(corpus, Transcript(messages), shuffle).Answer? ==>
      && Post(corpus, Transcript(messages), shuffle).text == FindBestMatch(corpus, QueryOf(messages)).value.answer
      && AskedIndices(corpus, messages).Some?
      && |Post(corpus, Transcript(messages), shuffle).suggestions| ==
           Min(MatchSuggestionCount, |Available(|corpus|,
             Excluded(corpus, AskedIndices(corpus, messages).value, FindBestMatch(corpus, QueryOf(messages)).value))|)
  {
    TrimEmptyIff(QueryOf(messages));
  }

  /** In a corpus with distinct questions a record's question is found at
      the record's own position. */
  lemma IndexOfOwnQuestion(corpus: seq<QAItem>, i: nat)
    requires DistinctQuestions(corpus) && i < |corpus|
    ensures IndexOfQuestion(corpus, corpus[i].question) == Some(i)
  {
  }

  /** In a corpus with distinct questions a text maps to the position of its
      best match. */
  lemma MatchedIndexIsBestIndex(corpus: seq<QAItem>, text: string)
    requires DistinctQuestions(corpus)
    ensures MatchedIndex(corpus, text) == FindBestMatchIndex(corpus, text)
  {
    match FindBestMatchIndex(corpus, text)
    case None =>
    case Some(i) =>
      FindBestMatchReturnsFirstBest(corpus, text, i);
      IndexOfOwnQuestion(corpus, i);
  }

  /** A suggestion taken from outside the exclusion set differs in its
      question from every excluded record. */
  lemma SuggestionOutside(corpus: seq<QAItem>, excluded: set<nat>, count: nat, shuffle: nat -> seq<nat>, j: nat, k: nat)
    requires IsShuffle(shuffle) && DistinctQuestions(corpus)
    requires j in excluded && j < |corpus|
    requires k < |Suggest(corpus, excluded, count, shuffle)|
    ensures Suggest(corpus, excluded, count, shuffle)[k].question != corpus[j].question
  {
    var r := Suggest(corpus, excluded, count, shuffle);
    var i :| 0 <= i < |corpus| && i !in excluded && r[k] == Suggestion(corpus[i].question, corpus[i].answer);
    if i < j {
      assert corpus[i].question != corpus[j].question;
    } else {
      assert corpus[j].question != corpus[i].question;
    }
  }

  /** On the match path no suggestion repeats the matched record or a record
      matched by any user turn of the transcript. */
  lemma SuggestionsAvoidAsked(corpus: seq<QAItem>, messages: seq<Message>, shuffle: nat -> seq<nat>, k: nat)
    requires IsShuffle(shuffle) && DistinctQuestions(corpus)
    requires Answerable(messages) && FindBestMatch(corpus, QueryOf(messages)).Some?
    requires Post(corpus, Transcript(messages), shuffle).Answer?
    requires k < |Post(corpus, Transcript(messages), shuffle).suggestions|
    ensures Post(corpus, Transcript(messages), shuffle).suggestions[k].question
      != FindBestMatch(corpus, QueryOf(messages)).value.question
    ensures forall t | 0 <= t < |messages| && messages[t].role == User && messages[t].content.Some?
        && FindBestMatch(corpus, messages[t].content.value).Some? ::
      Post(corpus, Transcript(messages), shuffle).suggestions[k].question
        != FindBestMatch(corpus, messages[t].content.value).value.question
  {
    var query := QueryOf(messages);
    TrimEmptyIff(query);
    var m := FindBestMatch(corpus, query).value;
    var asked := AskedIndices(corpus, messages).value;
    var excluded := Excluded(corpus, asked, m);
    assert Post(corpus, Transcript(messages), shuffle).suggestions
      == Suggest(corpus, excluded, MatchSuggestionCount, shuffle);
    var mi := FindBestMatchIndex(corpus, query).value;
    FindBestMatchReturnsFirstBest(corpus, query, mi);
    IndexOfOwnQuestion(corpus, mi);
    SuggestionOutside(corpus, excluded, MatchSuggestionCount, shuffle, mi, k);
    forall t | 0 <= t < |messages| && messages[t].role == User && messages[t].content.Some?
        && FindBestMatch(corpus, messages[t].content.value).Some?
      ensures Suggest(corpus, excluded, MatchSuggestionCount, shuffle)[k].question
        != FindBestMatch(corpus, messages[t].content.value).value.question
    {
      var c := messages[t].content.value;
      var ti := FindBestMatchIndex(corpus, c).value;
      FindBestMatchReturnsFirstBest(corpus, c, ti);
      MatchedIndexIsBestIndex(corpus, c);
      assert AskedAt(corpus, messages[t], ti);
      AskedIndicesSpec(corpus, messages, ti);
      SuggestionOutside(corpus, excluded, MatchSuggestionCount, shuffle, ti, k);
    }
  }

  /** A blank earlier user turn still counts as asking the first record, so on
      the match path the first record is never suggested. */
  lemma BlankTurnExcludesFirst(corpus: seq<QAItem>, messages: seq<Message>, shuffle: nat -> seq<nat>, t: nat, k: nat)
    requires IsShuffle(shuffle) && WellFormed(corpus)
    requires Answerable(messages) && FindBestMatch(corpus, QueryOf(messages)).Some?
    requires Post(corpus, Transcript(messages), shuffle).Answer?
    requires t < |messages| && messages[t].role == User && messages[t].content.Some?
    requires AllSpace(messages[t].content.value)
    requires k < |Post(corpus, Transcript(messages), shuffle).suggestions|
    ensures Post(corpus, Transcript(messages), shuffle).suggestions[k].question != corpus[0].question
  {
    BlankMatchesFirst(corpus, messages[t].content.value);
    SuggestionsAvoidAsked(corpus, messages, shuffle, k);
  }

  /** Over the fixed corpus the no-match reply carries exactly five
      suggestions, and on the match path a suggestion never repeats the
      matched record. */
  lemma FixedCorpusReplies(messages: seq<Message>, shuffle: nat -> seq<nat>, k: nat)
    requires IsShuffle(shuffle) && Answerable(messages)
    ensures FindBestMatch(Corpus, QueryOf(messages)).None? ==>
      |Post(Corpus, Transcript(messages), shuffle).suggestions| == 5
    ensures (&& FindBestMatch(Corpus, QueryOf(messages)).Some?
             && Post(Corpus, Transcript(messages), shuffle).Answer?
             && k < |Post(Corpus, Transcript(messages), shuffle).suggestions|) ==>
      Post(Corpus, Transcript(messages), shuffle).suggestions[k].question
        != FindBestMatch(Corpus, QueryOf(messages)).value.question
  {
    CorpusWellFormed();
    if FindBestMatch(Corpus, QueryOf(messages)).None? {
      NoMatchReply(Corpus, messages, shuffle);
    } else if Post(Corpus, Transcript(messages), shuffle).Answer? && k < |Post(Corpus, Transcript(messages), shuffle).suggestions| {
      SuggestionsAvoidAsked(Corpus, messages, shuffle, k);
    }
  }
}

=== FILE: config_parser.dfy ===
/** The derivation of the page's data from the portfolio configuration
    (src/lib/config-parser.ts). The configuration type itself is declared
    elsewhere; only the fields these derivations read are modelled. */
module ConfigParser {
  import opened Strings
  import opened Maybe
  import ChatFallback

  // ---------------------------------------------------------------------
  // The configuration
  // ---------------------------------------------------------------------

  datatype Personal = Personal(
    name: string,
    email: string,
    handle: string,
    age: int,
    location: string,
    bio: string,
    avatar: string,
    fallbackAvatar: string)

  datatype Social = Social(
    linkedin: string,
    github: string,
    twitter: string,
    kaggle: string,
    leetcode: string)

  datatype Skills = Skills(
    programming: seq<string>,
    mlAi: seq<string>,
    webDevelopment: seq<string>,
    databases: seq<string>,
    devopsCloud: seq<string>,
    iotHardware: seq<string>,
    softSkills: seq<string>)

  /** A project image; an empty `src` counts as missing. */
  datatype Image = Image(src: string)

  datatype Project = Project(category: string, title: string, images: seq<Image>)

  datatype Internship = Internship(
    seeking: bool,
    duration: string,
    startDate: string,
    preferredLocation: string,
    focusAreas: seq<string>,
    workStyle: string,
    goals: string,
    availability: string)

  datatype Config = Config(
    personal: Personal,
    social: Social,
    skills: Skills,
    projects: seq<Project>,
    internship: Internship)

  // ---------------------------------------------------------------------
  // Order-preserving filters
  // ---------------------------------------------------------------------

  /** `a` is `b` with some elements dropped, the rest in their order. */
  predicate Subsequence<T(==)>(a: seq<T>, b: seq<T>)
    decreases |b|
  {
    if a == [] then true
    else if b == [] then false
    else (a[0] == b[0] && Subsequence(a[1..], b[1..])) || Subsequence(a, b[1..])
  }

  /** JavaScript's `xs.filter(keep)`. */
  function Filter<T(==)>(xs: seq<T>, keep: T -> bool): (r: seq<T>)
    ensures |r| <= |xs|
    ensures forall k | 0 <= k < |r| :: r[k] in xs && keep(r[k])
    ensures forall k | 0 <= k < |xs| && keep(xs[k]) :: xs[k] in r
    ensures Subsequence(r, xs)
    ensures forall x | x in xs :: multiset(r)[x] == if keep(x) then multiset(xs)[x] else 0
    decreases |xs|
  {
    if xs == [] then []
    else
      var rest := Filter(xs[1..], keep);
      FilterOrderStep(xs, rest, keep);
      FilterCountStep(xs, rest, keep);
      if keep(xs[0]) then [xs[0]] + rest else rest
  }

  /** The ordering step of `Filter`: if `rest` is the passing elements of
      `xs[1..]` in order, then prepending `xs[0]` when it passes gives the
      passing elements of `xs` in order. */
  lemma FilterOrderStep<T>(xs: seq<T>, rest: seq<T>, keep: T -> bool)
    requires xs != []
    requires |rest| <= |xs| - 1
    requires forall k | 0 <= k < |rest| :: rest[k] in xs[1..] && keep(rest[k])
    requires forall k | 1 <= k < |xs| && keep(xs[k]) :: xs[k] in rest
    requires Subsequence(rest, xs[1..])
    ensures var r := if keep(xs[0]) then [xs[0]] + rest else rest;
      && |r| <= |xs|
      && (forall k | 0 <= k < |r| :: r[k] in xs && keep(r[k]))
      && (forall k | 0 <= k < |xs| && keep(xs[k]) :: xs[k] in r)
      && Subsequence(r, xs)
  {
    assert xs == [xs[0]] + xs[1..];
    if keep(xs[0]) {
      assert ([xs[0]] + rest)[1..] == rest;
    }
  }

  /** The counting step of `Filter`: if `rest` holds the passing elements of
      `xs[1..]` as often as they occur there, then prepending `xs[0]` when it
      passes does the same for `xs`. */
  lemma FilterCountStep<T>(xs: seq<T>, rest: seq<T>, keep: T -> bool)
    requires xs != []
    requires forall k | 0 <= k < |rest| :: rest[k] in xs[1..]
    requires forall x | x in xs[1..] :: multiset(rest)[x] == if keep(x) then multiset(xs[1..])[x] else 0
    ensures var r := if keep(xs[0]) then [xs[0]] + rest else rest;
      forall x | x in xs :: multiset(r)[x] == if keep(x) then multiset(xs)[x] else 0
  {
    assert xs == [xs[0]] + xs[1..];
    assert multiset(xs) == multiset{xs[0]} + multiset(xs[1..]);
    assert multiset([xs[0]] + rest) == multiset{xs[0]} + multiset(rest);
  }

  /** Filtering keeps everything exactly when every element passes. */
  lemma {:induction false} FilterKeepsAll<T>(xs: seq<T>, keep: T -> bool)
    ensures Filter(xs, keep) == xs <==> forall k | 0 <= k < |xs| :: keep(xs[k])
    decreases |xs|
  {
    if xs != [] {
      FilterKeepsAll(xs[1..], keep);
      if !keep(xs[0]) {
        assert |Filter(xs, keep)| < |xs| by { assert Filter(xs, keep) == Filter(xs[1..], keep); }
      } else {
        assert forall k | 1 <= k < |xs| :: xs[k] == xs[1..][k - 1];
      }
    }
  }

  // ---------------------------------------------------------------------
  // generateContactInfo
  // ---------------------------------------------------------------------

  datatype Link = Link(name: string, url: string)

  datatype ContactInfo = ContactInfo(name: string, email: string, handle: string, socials: seq<Link>)

  /** The five social links, in the order the page lists them. */
  function SocialLinks(s: Social): (r: seq<Link>)
  {
    [ Link("LinkedIn", s.linkedin),
      Link("GitHub", s.github),
      Link("Twitter", s.twitter),
      Link("Kaggle", s.kaggle),
      Link("LeetCode", s.leetcode) ]
  }

  /** A link with a configured URL. */
  predicate HasUrl(l: Link) {
    l.url != []
  }

  /** `generateContactInfo`: the personal fields as they are, and the social
      links that have a URL, at most five and in the fixed order. */
  function GenerateContactInfo(c: Config): (r: ContactInfo)
    ensures r.name == c.personal.name && r.email == c.personal.email && r.handle == c.personal.handle
    ensures |r.socials| <= 5
    ensures forall l :: l in r.socials <==> l in SocialLinks(c.social) && l.url != []
    ensures Subsequence(r.socials, SocialLinks(c.social))
  {
    ContactInfo(c.personal.name, c.personal.email, c.personal.handle, Filter(SocialLinks(c.social), HasUrl))
  }

  /** With every URL configured all five links appear, LinkedIn first. */
  lemma AllSocialsListed(c: Config)
    requires c.social.linkedin != [] && c.social.github != [] && c.social.twitter != []
    requires c.social.kaggle != [] && c.social.leetcode != []
    ensures GenerateContactInfo(c).socials == SocialLinks(c.social)
    ensures GenerateContactInfo(c).socials[0].name == "LinkedIn"
  {
    FilterKeepsAll(SocialLinks(c.social), HasUrl);
  }

  /** With no URL configured the list is empty. */
  lemma NoSocialsListed(c: Config)
    requires c.social == Social([], [], [], [], [])
    ensures GenerateContactInfo(c).socials == []
  {
  }

  // ---------------------------------------------------------------------
  // generateProfileInfo
  // ---------------------------------------------------------------------

  datatype ProfileInfo = ProfileInfo(
    name: string,
    age: string,
    location: string,
    description: string,
    src: string,
    fallbackSrc: string)

  predicate IsDigit(ch: char) {
    '0' <= ch <= '9'
  }

  /** The decimal digits of `n`, most significant first, without leading
      zeros. */
  function Digits(n: nat): (r: string)
    ensures |r| > 0 && forall k | 0 <= k < |r| :: IsDigit(r[k])
    ensures |r| > 1 ==> r[0] != '0'
    decreases n
  {
    if n < 10 then [('0' as int + n) as char]
    else Digits(n / 10) + [('0' as int + n % 10) as char]
  }

  /** The number a string of digits denotes. */
  function DigitsValue(s: string): (r: nat)
    requires forall k | 0 <= k < |s| :: IsDigit(s[k])
    decreases |s|
  {
    if s == [] then 0
    else
      assert IsDigit(s[|s| - 1]);
      DigitsValue(s[..|s| - 1]) * 10 + (s[|s| - 1] as int - '0' as int)
  }

  /** How a template literal prints an integer. */
  function DecimalText(n: int): (r: string)
    ensures r != []
    ensures r[0] == '-' <==> n < 0
    ensures forall k | (if n < 0 then 1 else 0) <= k < |r| :: IsDigit(r[k])
  {
    if n < 0 then "-" + Digits(-n) else Digits(n)
  }

  /** Reading a decimal text back, the inverse of `DecimalText`. */
  function DecimalValue(s: string): (r: Option<int>)
  {
    if |s| > 0 && s[0] == '-' && |s| > 1 && forall k | 1 <= k < |s| :: IsDigit(s[k]) then
      Some(0 - DigitsValue(s[1..]))
    else if |s| > 0 && forall k | 0 <= k < |s| :: IsDigit(s[k]) then
      Some(DigitsValue(s))
    else None
  }

  lemma {:induction false} DigitsRoundTrip(n: nat)
    ensures DigitsValue(Digits(n)) == n
    decreases n
  {
    if n >= 10 {
      DigitsRoundTrip(n / 10);
      var d := Digits(n);
      assert d[..|d| - 1] == Digits(n / 10);
    }
  }

  /** The printed integer reads back as itself. */
  lemma DecimalRoundTrip(n: int)
    ensures DecimalValue(DecimalText(n)) == Some(n)
  {
    if n < 0 {
      DigitsRoundTrip(-n);
      assert DecimalText(n)[1..] == Digits(-n);
    } else {
      DigitsRoundTrip(n);
    }
  }

  const YearsOld := " years old"

  /** `generateProfileInfo`: the personal fields, with the age printed and
      followed by " years old". */
  function GenerateProfileInfo(c: Config): (r: ProfileInfo)
    ensures r.name == c.personal.name && r.location == c.personal.location
    ensures r.description == c.personal.bio
    ensures r.src == c.personal.avatar && r.fallbackSrc == c.personal.fallbackAvatar
    ensures |r.age| > |YearsOld| && r.age[|r.age| - |YearsOld|..] == YearsOld
  {
    var age := DecimalText(c.personal.age) + YearsOld;
    assert age[|age| - |YearsOld|..] == YearsOld;
    ProfileInfo(c.personal.name, age, c.personal.location, c.personal.bio,
      c.personal.avatar, c.personal.fallbackAvatar)
  }

  /** The age text gives the configured age back once " years old" is cut
      off. */
  lemma ProfileAgeReadsBack(c: Config)
    ensures var age := GenerateProfileInfo(c).age;
      DecimalValue(age[..|age| - |YearsOld|]) == Some(c.personal.age)
  {
    var age := GenerateProfileInfo(c).age;
    assert age[..|age| - |YearsOld|] == DecimalText(c.personal.age);
    DecimalRoundTrip(c.personal.age);
  }

  // ---------------------------------------------------------------------
  // generateSkillsData
  // ---------------------------------------------------------------------

  datatype SkillCategory = SkillCategory(category: string, skills: seq<string>, color: string)

  /** The seven categories, in the order the page shows them. */
  function SkillCategories(s: Skills): (r: seq<SkillCategory>)
  {
    [ SkillCategory("Programming Languages", s.programming, "bg-blue-50 text-blue-600 border border-blue-200"),
      SkillCategory("ML/AI Technologies", s.mlAi, "bg-purple-50 text-purple-600 border border-purple-200"),
      SkillCategory("Web Development", s.webDevelopment, "bg-green-50 text-green-600 border border-green-200"),
      SkillCategory("Databases", s.databases, "bg-orange-50 text-orange-600 border border-orange-200"),
      SkillCategory("DevOps & Cloud", s.devopsCloud, "bg-emerald-50 text-emerald-600 border border-emerald-200"),
      SkillCategory("IoT & Hardware", s.iotHardware, "bg-indigo-50 text-indigo-600 border border-indigo-200"),
      SkillCategory("Soft Skills", s.softSkills, "bg-amber-50 text-amber-600 border border-amber-200") ]
  }

  predicate NonEmptyCategory(k: SkillCategory) {
    |k.skills| > 0
  }

  /** `generateSkillsData`: the categories that have at least one skill, in
      the fixed order. */
  function GenerateSkillsData(c: Config): (r: seq<SkillCategory>)
    ensures |r| <= 7
    ensures forall k :: k in r <==> k in SkillCategories(c.skills) && |k.skills| > 0
    ensures Subsequence(r, SkillCategories(c.skills))
  {
    Filter(SkillCategories(c.skills), NonEmptyCategory)
  }

  /** Each of the seven categories is shown exactly when it has a skill. */
  lemma CategoryShownIffNonEmpty(c: Config, i: nat)
    requires i < 7
    ensures SkillCategories(c.skills)[i] in GenerateSkillsData(c) <==> |SkillCategories(c.skills)[i].skills| > 0
  {
  }

  // ---------------------------------------------------------------------
  // generateProjectData
  // ---------------------------------------------------------------------

  datatype ProjectCard = ProjectCard(category: string, title: string, src: string, content: Project)

  const Placeholder := "/placeholder.jpg"

  /** `project.images[0]?.src || '/placeholder.jpg'`. */
  function CoverOf(p: Project): (r: string)
    ensures r != []
    ensures r == Placeholder || (|p.images| > 0 && r == p.images[0].src)
    ensures |p.images| > 0 && p.images[0].src != [] ==> r == p.images[0].src
  {
    if |p.images| > 0 && p.images[0].src != [] then p.images[0].src else Placeholder
  }

  function CardOf(p: Project): (r: ProjectCard)
    ensures r.content == p && r.category == p.category && r.title == p.title
    ensures r.src == CoverOf(p)
    ensures |p.images| > 0 && p.images[0].src != [] ==> r.src == p.images[0].src
    ensures (|p.images| == 0 || p.images[0].src == []) ==> r.src == Placeholder
  {
    ProjectCard(p.category, p.title, CoverOf(p), p)
  }

  /** `generateProjectData`: one card per project, in the same order, each
      carrying its whole project. */
  function GenerateProjectData(c: Config): (r: seq<ProjectCard>)
    ensures |r| == |c.projects|
    ensures forall i | 0 <= i < |r| :: r[i].content == c.projects[i] && r[i].src != []
    ensures forall i | 0 <= i < |r| :: r[i].src == CoverOf(c.projects[i])
  {
    Cards(c.projects)
  }

  function Cards(ps: seq<Project>): (r: seq<ProjectCard>)
    ensures |r| == |ps|
    ensures forall i | 0 <= i < |r| :: r[i] == CardOf(ps[i])
  {
    seq(|ps|, i requires 0 <= i < |ps| => CardOf(ps[i]))
  }

  /** Cards follow the projects: the cards of a concatenation are the
      concatenated cards, so the order of the projects is kept. */
  lemma CardsAppend(a: seq<Project>, b: seq<Project>)
    ensures Cards(a + b) == Cards(a) + Cards(b)
  {
    assert forall i | 0 <= i < |a + b| :: Cards(a + b)[i] == (Cards(a) + Cards(b))[i];
  }

  /** A card can be turned back into its project, so no two different
      project lists give the same cards. */
  lemma CardsInjective(a: seq<Project>, b: seq<Project>)
    requires Cards(a) == Cards(b)
    ensures a == b
  {
    assert forall i | 0 <= i < |a| :: a[i] == Cards(a)[i].content;
  }

  // ---------------------------------------------------------------------
  // generatePresetReplies
  // ---------------------------------------------------------------------

  const WhoAreYou := "Who are you?"

  /** The six preset questions. */
  const PresetQuestions: set<string> := {
    WhoAreYou,
    "What are your skills?",
    "What projects are you most proud of?",
    "Can I see your resume?",
    "How can I reach you?",
    "Am I available for opportunities?"
  }

  /** `generatePresetReplies`: six fixed questions, each with its tool; only
      "Who are you?" depends on the configuration, answering with the bio. */
  function GeneratePresetReplies(c: Config): (r: map<string, ChatFallback.Preset>)
    ensures r.Keys == PresetQuestions
    ensures r[WhoAreYou] == ChatFallback.Preset(c.personal.bio, "getPresentation")
  {
    map[
      WhoAreYou := ChatFallback.Preset(c.personal.bio, "getPresentation"),
      "What are your skills?" := ChatFallback.Preset("My technical expertise spans multiple domains...", "getSkills"),
      "What projects are you most proud of?" := ChatFallback.Preset("Here are some of my key projects...", "getProjects"),
      "Can I see your resume?" := ChatFallback.Preset("Here's my resume with all the details...", "getResume"),
      "How can I reach you?" := ChatFallback.Preset("Here's how you can reach me...", "getContact"),
      "Am I available for opportunities?" := ChatFallback.Preset("Here are my current opportunities and availability...", "getInternship")
    ]
  }

  /** There are exactly six preset questions, so six presets. */
  lemma SixPresetQuestions()
    ensures |PresetQuestions| == 6
  {
    var q0, q1, q2 := "Who are you?", "What are your skills?", "What projects are you most proud of?";
    var q3, q4, q5 := "Can I see your resume?", "How can I reach you?", "Am I available for opportunities?";
    var s0: set<string> := {};
    assert |q0| == 12 && |q1| == 21 && |q2| == 36 && |q3| == 22 && |q4| == 20 && |q5| == 33;
    var s1 := s0 + {q0};
    var s2 := s1 + {q1};
    assert q1 !in s1;
    var s3 := s2 + {q2};
    assert q2 !in s2;
    var s4 := s3 + {q3};
    assert q3 !in s3;
    var s5 := s4 + {q4};
    assert q4 !in s4;
    var s6 := s5 + {q5};
    assert q5 !in s5;
    assert |s6| == 6;
    assert PresetQuestions == s6;
  }

  /** Two configurations with the same bio give the same presets. */
  lemma PresetsDependOnlyOnBio(c1: Config, c2: Config)
    requires c1.personal.bio == c2.personal.bio
    ensures GeneratePresetReplies(c1) == GeneratePresetReplies(c2)
  {
  }

  /** Submitting "Who are you?" with the generated presets shows the bio
      with the presentation tool and leaves the transcript alone. */
  lemma WhoAreYouShowsBio(c: Config, page: ChatFallback.Page)
    ensures var r := ChatFallback.Submit(page, WhoAreYou, false, GeneratePresetReplies(c));
      && r.shown == Some(ChatFallback.Shown(WhoAreYou, c.personal.bio, "getPresentation"))
      && r.turns == page.turns
  {
    var presets := GeneratePresetReplies(c);
    assert WhoAreYou[0] == 'W';
    assert !AllSpace(WhoAreYou);
    ChatFallback.PresetBeforeFallback(page, WhoAreYou, presets);
  }

  // ---------------------------------------------------------------------
  // generateInternshipInfo
  // ---------------------------------------------------------------------

  const NotSeeking := "I'm not currently seeking internship opportunities."

  /** The focus areas, as the text lists them. */
  function FocusList(i: Internship): string {
    Join(i.focusAreas, ", ")
  }

  /** The text in front of the focus areas. */
  function FocusLead(i: Internship): string {
    "Here's what I'm looking for 👇\n\n- 📅 **Duration**: " + i.duration + " starting **" + i.startDate + "**\n- 🌍 **Location**: " + i.preferredLocation + "\n- 🧑‍💻 **Focus**: "
  }

  /** The text after the focus areas. */
  function FocusTail(c: Config): string {
    var i := c.internship;
    "\n- 🛠️ **Working Style**: " + i.workStyle + "\n- 🎯 **Goals**: " + i.goals + "\n\n📬 **Contact me** via:\n- Email: " + c.personal.email + "\n- LinkedIn: "
      + c.social.linkedin + "\n- GitHub: " + c.social.github + "\n\n" + i.availability + " ✌️"
  }

  /** `generateInternshipInfo`: a fixed sentence when not seeking, otherwise
      the template with the focus areas joined by ", ". */
  function GenerateInternshipInfo(c: Config): (r: string)
    ensures !c.internship.seeking ==> r == NotSeeking
    ensures c.internship.seeking ==> Contains(r, FocusList(c.internship))
  {
    if !c.internship.seeking then NotSeeking
    else
      var r := FocusLead(c.internship) + FocusList(c.internship) + FocusTail(c);
      ContainsInfix(FocusLead(c.internship), FocusList(c.internship), FocusTail(c));
      r
  }

  /** When seeking, every focus area appears in the text. */
  lemma InternshipNamesEachFocus(c: Config)
    requires c.internship.seeking
    ensures forall k | 0 <= k < |c.internship.focusAreas| ::
      Contains(GenerateInternshipInfo(c), c.internship.focusAreas[k])
  {
    var r := GenerateInternshipInfo(c);
    var i := c.internship;
    forall k | 0 <= k < |i.focusAreas|
      ensures Contains(r, i.focusAreas[k])
    {
      JoinContainsParts(i.focusAreas, ", ", k);
      ContainsTrans(r, FocusList(i), i.focusAreas[k]);
    }
  }
}

=== FILE: maybe.dfy ===
/** The optional value used for JavaScript's `null` / `undefined` results. */
module Maybe {

  datatype Option<+T> = None | Some(value: T) {

    /** The wrapped value, or `default` when there is none (JavaScript's `x || default`
        on a value that is never falsy). */
    function GetOr(default: T): T {
      match this
      case Some(v) => v
      case None => default
    }
  }
}

=== FILE: qa_corpus.dfy ===
/** The question/answer corpus behind the chat widget (the `qaData` table of
    src/lib/qa-data.ts) and the facts about it that the matcher and the chat
    route rely on. */
module QaCorpus {

  /** One corpus record: the displayed question (with a decorative leading
      glyph), the stored answer, and the trigger keywords. Keywords form a
      sequence, so a repeated keyword scores once per occurrence. */
  datatype QAItem = QAItem(question: string, answer: string, keywords: seq<string>)

  /** The fixed corpus, in declaration order; corpus indices are positions in
      it. Record `i` is assembled from the `i`-th entry of the three tables
      below, which list the questions, keywords and answers of the `qaData`
      records in the same order. */
  const Corpus: seq<QAItem> :=
    seq(|Questions|, i requires 0 <= i < |Questions| =>
      QAItem(Questions[i], Answers[i], KeywordLists[i]))

  /** The question of every record. */
  const Questions: seq<string> := [
    "🧑‍💻 Who are you?",  // 0
    "💼 What was your last company?",  // 1
    "❓ Why did you leave your last company?",  // 2
    "💡 What kind of projects have you worked on recently?",  // 3
    "🧠 What do you specialize in?",  // 4
    "🌟 What makes you different from other candidates?",  // 5
    "⚙️ What technologies do you work with?",  // 6
    "📍 Where are you located?",  // 7
    "🚀 What motivates you at work?",  // 8
    "🔧 What's a technical challenge you solved recently?",  // 9
    "💬 How do you handle challenges or pressure?",  // 10
    "🧩 How do you keep your technical skills up-to-date?",  // 11
    "🏆 What are you most proud of in your career so far?",  // 12
    "🔥 What do you look for in a company?",  // 13
    "📈 What's your long-term goal?",  // 14
    "💻 What kind of project would make you say \"yes\" immediately?",  // 15
    "🤝 How do you work in a team?",  // 16
    "✨ What are your strengths?",  // 17
    "💬 What are your weaknesses?",  // 18
    "🎯 What are your interests outside work?",  // 19
    "📞 How can someone reach you?"  // 20
  ]

  /** The keywords of every record. */
  const KeywordLists: seq<seq<string>> := [
    ["who", "are", "you", "introduction", "introduce", "yourself"],  // 0
    ["last", "company", "previous", "work", "worked", "company", "role", "job"],  // 1
    ["why", "leave", "left", "departure", "resign", "quit", "reason"],  // 2
    ["projects", "worked", "recent", "built", "developed", "project", "portfolio"],  // 3
    ["specialize", "specialization", "expertise", "focus", "skills", "specialty"],  // 4
    ["different", "unique", "stand", "out", "advantage", "edge", "candidate"],  // 5
    ["technologies", "tech", "stack", "tools", "languages", "frameworks", "skills", "tech"],  // 6
    ["where", "located", "location", "base", "based", "live", "city"],  // 7
    ["motivate", "motivation", "drive", "inspire", "excite", "passion", "work"],  // 8
    ["challenge", "technical", "problem", "solved", "difficulty", "recent"],  // 9
    ["handle", "challenge", "pressure", "stress", "deal", "coping", "difficult"],  // 10
    ["skills", "up-to-date", "learn", "learning", "improve", "develop", "grow"],  // 11
    ["proud", "achievement", "accomplishment", "proudest", "best", "career"],  // 12
    ["company", "look", "for", "culture", "values", "expect", "want"],  // 13
    ["goal", "long-term", "future", "aspiration", "plan", "vision", "career"],  // 14
    ["project", "yes", "immediately", "interest", "excite", "would", "want"],  // 15
    ["team", "work", "collaboration", "collaborate", "together", "colleagues"],  // 16
    ["strengths", "strength", "strong", "good", "at", "excel", "best"],  // 17
    ["weaknesses", "weakness", "weak", "improve", "improvement", "challenge"],  // 18
    ["interests", "interest", "hobby", "hobbies", "outside", "work", "personal"],  // 19
    ["reach", "contact", "email", "phone", "connect", "get", "touch"]  // 20
  ]

  /** The answer of every record. */
  const Answers: seq<string> := [
    // 0
    "I'm Mann Gupta, a passionate Software Engineer skilled in Backend Development, AI/ML, and DevOps, focused on creating scalable, automated, and intelligent systems.",
    // 1
    "My last role was at WorkIndia, where I worked as a Software Developer Intern from February 2025 to July 2025.",
    // 2
    "I had to step away due to a family emergency, which required my full attention. During that time, I began developing a product prototype and continued learning advanced backend and AI technologies. Now, I'm back with double the energy and focus, ready to take on challenging roles again.",
    // 3
    "**Multi-Tenant Project Management System** (Jira-inspired) - Built with TypeScript, Node.js, MongoDB, featuring role-based access and real-time updates for multiple organizations.\n\n**Pneumonia Detection CNN Model** - Achieved 92% accuracy using TensorFlow/Keras, optimized with GPU acceleration for medical imaging classification.\n\n**Course Differentiator Platform** - AI-powered chatbot using Generative AI and web scraping (BeautifulSoup) to provide personalized course recommendations.\n\n**EduTube Live Streaming App** - Full-stack platform with secure authentication, AI-filtered content, and CI/CD automation.\n\n**Player-Ball Interaction Analysis** - Computer vision pipeline for sports analytics using OpenCV and deep learning.\n\nEach project demonstrates my ability to build production-ready systems across different domains.",
    // 4
    "I specialize in three core areas:\n\n**Backend Development** - Building scalable microservices, RESTful APIs, and multi-tenant architectures (like my Jira-inspired project management system).\n\n**AI/ML Engineering** - Developing intelligent systems, chatbots, and computer vision models. At ITC Infotech, I built Agentic AI bots that reduced HR workload significantly.\n\n**DevOps & Cloud** - Optimizing infrastructure on AWS (EKS, EC2, S3), implementing CI/CD pipelines, and reducing operational costs. I cut WorkIndia's costs by 50% through auto-scaling.",
    // 5
    "My unique combination of **JEE Advanced qualification** (among 1M+ candidates) and **1900+ LeetCode rating** shows both academic excellence and consistent problem-solving skills. I've delivered measurable impact: reducing operational costs by 50% at WorkIndia, building a 92% accurate CNN model for pneumonia detection, and creating AI systems that actually improve team productivity. I'm not just a coder—I design solutions that scale and save costs while maintaining quality.",
    // 6
    "Languages: Python, C++, Java, TypeScript, JavaScript\n\nFrameworks: Django, Node.js, React.js, Next.js\n\nAI/ML: TensorFlow, Keras, Scikit-learn, LangChain, Agentic AI\n\nCloud & DevOps: AWS (EC2, EKS, S3), Docker, Kubernetes, Jenkins, CI/CD\n\nDatabases: MySQL, PostgreSQL, MongoDB",
    // 7
    "I'm currently based in Bangalore, India, but open to remote work or relocation for the right opportunity.",
    // 8
    "**Real impact**—I'm driven by building systems that genuinely improve efficiency, like cutting costs by 50% or reducing team workload with AI automation. **Technical challenges** that push me to learn—mastering Kubernetes, building 92% accurate ML models, and designing multi-tenant architectures. **Continuous growth**—working with teams that value innovation, where I can contribute to meaningful projects while expanding my skills in enterprise-level development, cloud infrastructure, and AI/ML systems.",
    // 9
    "At WorkIndia, I migrated and optimized an Amazon EKS cluster hosting 15+ microservices. I implemented auto-scaling, reducing operational costs and boosting stability — a key win for deployment efficiency.",
    // 10
    "I focus on breaking problems into small, logical steps, automate repetitive parts, and collaborate with teammates. My calm mindset and structured problem-solving approach help me deliver under tight deadlines.",
    // 11
    "**Hands-on practice**: I maintain a 1900+ LeetCode rating through consistent problem-solving. **Building real projects**: Each new project introduces me to new tech—I learned Kubernetes and EKS while optimizing WorkIndia's infrastructure, and mastered LangChain/Agentic AI at ITC Infotech. **Following industry trends**: I stay updated on AI research, cloud innovations (AWS updates), and DevOps best practices. **Learning by doing**: Rather than just reading, I implement new technologies in personal projects—my Course Differentiator taught me web scraping, and my CNN model deepened my understanding of medical AI.",
    // 12
    "**At WorkIndia**: Reducing operational costs by 50% through smart auto-scaling in Amazon EKS—this had real financial impact and improved system reliability.\n\n**At ITC Infotech**: Building Agentic AI bots (Customer Support & HR) that autonomously handled queries, genuinely reducing team workload.\n\n**Technical Achievement**: Building a 92% accurate CNN model for pneumonia detection—applying deep learning to healthcare showed me how tech can save lives.\n\n**Academic Excellence**: Qualifying JEE Advanced among 1M+ candidates and maintaining 1900+ LeetCode rating demonstrates consistent excellence in both academics and problem-solving.",
    // 13
    "A culture that values innovation, ownership, and learning. I thrive in environments where I can build end-to-end systems, take initiative, and work with teams solving impactful, technical problems.",
    // 14
    "To grow into a Tech Lead or AI Systems Engineer, driving scalable backend architectures and integrating AI into real-world automation systems.",
    // 15
    "Projects that combine **AI with real-world impact**—like my pneumonia detection model (92% accuracy) or the Agentic AI bots that reduced HR workload. I'm excited about **scalable backend systems** that serve multiple organizations (like my multi-tenant project management system). **DevOps challenges** where I can optimize costs and infrastructure—I cut WorkIndia's costs by 50% through smart auto-scaling. Any role where I can build systems that genuinely improve efficiency and scale to serve thousands of users.",
    // 16
    "I believe in clear communication, ownership, and collaboration. I often take initiative in debugging, reviewing PRs, or automating tasks to support my team's productivity.",
    // 17
    "**Technical Excellence**: Fast learner who mastered Kubernetes, EKS, and AI frameworks quickly—reduced deployment costs by 50% within months at WorkIndia.\n\n**Problem-Solving**: Strong analytical skills shown through 1900+ LeetCode rating and building complex systems like multi-tenant architectures.\n\n**Attention to Detail**: Achieved 92% accuracy in medical AI models and designed systems that handle production workloads reliably.\n\n**Team Collaboration**: Built Agentic AI bots that reduced HR workload, showing I create tools that help entire teams, not just myself.",
    // 18
    "I tend to overanalyze details initially, but I've learned to balance speed with precision through structured planning and task prioritization.",
    // 19
    "Exploring new technologies, playing sports, and traveling — they help me recharge and approach problems with fresh perspectives.",
    // 20
    "**Email**: manngupta923@gmail.com\n**Phone**: +91 6266725150\n**LinkedIn**: [linkedin.com/in/gupta-mann](https://linkedin.com/in/gupta-mann)\n**GitHub**: [github.com/mann-gupta1](https://github.com/mann-gupta1)\n**LeetCode**: [leetcode.com/m-g](https://leetcode.com/m-g)\n\nI'm based in Bangalore, India, and available for immediate opportunities. Feel free to reach out for collaborations, opportunities, or just to connect!"
  ]

  // ---------------------------------------------------------------------
  // Facts about the fixed corpus
  // ---------------------------------------------------------------------

  /** No two records share a question text. */
  predicate DistinctQuestions(corpus: seq<QAItem>) {
    forall i, j | 0 <= i < j < |corpus| :: corpus[i].question != corpus[j].question
  }

  /** Every keyword of every record is non-empty. */
  predicate NonEmptyKeywords(corpus: seq<QAItem>) {
    forall i, k | 0 <= i < |corpus| && 0 <= k < |corpus[i].keywords| :: corpus[i].keywords[k] != []
  }

  /** The shape of the fixed corpus that the matcher and the chat route rely on. */
  predicate WellFormed(corpus: seq<QAItem>) {
    |corpus| > 0 && DistinctQuestions(corpus) && NonEmptyKeywords(corpus)
  }

  /** Record `i` of the corpus carries the `i`-th question, answer and keywords. */
  lemma CorpusRecords()
    ensures |Corpus| == |Questions| == |Answers| == |KeywordLists| == 21
    ensures forall i | 0 <= i < |Corpus| ::
      Corpus[i] == QAItem(Questions[i], Answers[i], KeywordLists[i])
  {
  }

  /** The length of every question of the fixed corpus. */
  const QuestionLengths: seq<nat> := [16, 29, 38, 52, 28, 49, 38, 24, 29, 51, 43, 51, 51, 36, 29, 60, 28, 26, 27, 39, 28]

  lemma QuestionLengthTable()
    ensures |Questions| == |QuestionLengths|
    ensures forall i | 0 <= i < |Questions| :: |Questions[i]| == QuestionLengths[i]
  {
  }

  /** The only pairs of questions with equal lengths. */
  lemma EqualLengthPairs()
    ensures forall i, j | 0 <= i < j < |QuestionLengths| && QuestionLengths[i] == QuestionLengths[j] ::
      (i, j) == (1, 8)
      || (i, j) == (1, 14)
      || (i, j) == (2, 6)
      || (i, j) == (4, 16)
      || (i, j) == (4, 20)
      || (i, j) == (8, 14)
      || (i, j) == (9, 11)
      || (i, j) == (9, 12)
      || (i, j) == (11, 12)
      || (i, j) == (16, 20)
  {
  }

  /** Questions of equal length already differ in their second-to-last character. */
  lemma EqualLengthQuestionsDiffer()
    ensures Questions[1][27] != Questions[8][27]
      && Questions[1][27] != Questions[14][27]
      && Questions[2][36] != Questions[6][36]
      && Questions[4][26] != Questions[16][26]
      && Questions[4][26] != Questions[20][26]
      && Questions[8][27] != Questions[14][27]
      && Questions[9][49] != Questions[11][49]
      && Questions[9][49] != Questions[12][49]
      && Questions[11][49] != Questions[12][49]
      && Questions[16][26] != Questions[20][26]
  {
  }

  lemma QuestionsDistinct()
    ensures forall i, j | 0 <= i < j < |Questions| :: Questions[i] != Questions[j]
  {
    QuestionLengthTable();
    EqualLengthPairs();
    EqualLengthQuestionsDiffer();
  }

  /** No record lists the empty keyword. */
  lemma NoEmptyKeyword()
    ensures forall i | 0 <= i < |KeywordLists| :: [] !in KeywordLists[i]
  {
  }

  /** "company" is listed twice for the last-company record and "tech"
      twice for the technologies record, so each scores twice. */
  lemma RepeatedKeywords()
    ensures KeywordLists[1][1] == KeywordLists[1][5] == "company"
    ensures KeywordLists[6][1] == KeywordLists[6][7] == "tech"
  {
  }

  /** The fixed corpus has 21 records with distinct questions and non-empty keywords. */
  lemma CorpusWellFormed()
    ensures |Corpus| == 21
    ensures WellFormed(Corpus)
  {
    CorpusRecords();
    QuestionsDistinct();
    NoEmptyKeyword();
  }
}

=== FILE: qa_data.dfy ===
/** The question/answer corpus of the chat widget, the matcher that picks the
    record best matching a free-text query, and the selector of follow-up
    suggestions (src/lib/qa-data.ts). */
module QaData {
  import opened Strings
  import opened Maybe
  import opened QaCorpus

  /** Words dropped from the query's tokens (they can still score through the
      whole-query substring test). */
  const StopWords: seq<string> :=
    ["what", "where", "who", "why", "how", "when", "which", "can", "do", "does",
     "did", "will", "are", "is", "the", "a", "an"]

  function Min(a: nat, b: nat): nat {
    if a <= b then a else b
  }

  // ---------------------------------------------------------------------
  // Matcher (findBestMatch)
  // ---------------------------------------------------------------------

  /** A query word that survives filtering: longer than two characters and
      not a stop word. */
  predicate IsToken(w: string) {
    |w| > 2 && w !in StopWords
  }

  function KeepTokens(words: seq<string>): (r: seq<string>)
    ensures forall w :: w in r <==> w in words && IsToken(w)
    decreases |words|
  {
    if |words| == 0 then []
    else (if IsToken(words[0]) then [words[0]] else []) + KeepTokens(words[1..])
  }

  /** The query tokens: the whitespace-separated words of the normalized
      query that are longer than two characters and are not stop words. */
  function Tokens(norm: string): (r: seq<string>)
    ensures forall w :: w in r <==> w in Split(norm) && IsToken(w)
  {
    KeepTokens(Split(norm))
  }

  /** Some token and the keyword contain one another. */
  predicate TokenRelated(tokens: seq<string>, kw: string) {
    exists w | w in tokens :: Contains(w, kw) || Contains(kw, w)
  }

  /** The empty keyword is related to every token, so it earns its point
      exactly when the query has a token. */
  lemma TokenRelatedEmptyKeyword(tokens: seq<string>)
    ensures TokenRelated(tokens, []) <==> tokens != []
  {
    if tokens != [] {
      assert Contains(tokens[0], []);
    }
  }

  /** Points one keyword earns: 2 when the normalized query contains it, and
      independently 1 when it is substring-related to some token. */
  function KeywordPoints(norm: string, tokens: seq<string>, kw: string): (p: nat)
    ensures p <= 3
    ensures p >= 2 <==> Contains(norm, ToLower(kw))
    ensures p % 2 == 1 <==> TokenRelated(tokens, ToLower(kw))
  {
    var k := ToLower(kw);
    (if Contains(norm, k) then 2 else 0) + (if TokenRelated(tokens, k) then 1 else 0)
  }

  /** Points of a keyword sequence: one contribution per occurrence. */
  function KeywordScore(norm: string, tokens: seq<string>, kws: seq<string>): (s: nat)
    ensures s <= 3 * |kws|
    decreases |kws|
  {
    if |kws| == 0 then 0
    else KeywordPoints(norm, tokens, kws[0]) + KeywordScore(norm, tokens, kws[1..])
  }

  /** The question with its leading glyph removed, lower-cased: the first
      run of non-whitespace characters and the one whitespace character after
      it are dropped. A question that starts with whitespace or has none is
      only lower-cased. */
  function StripGlyph(question: string): (r: string)
    ensures |r| <= |question|
    ensures r == ToLower(question[|question| - |r|..])
  {
    var i := SpaceFrom(question, 0);
    ToLower(if 0 < i < |question| then question[i + 1..] else question)
  }

  /** The 5-point bonus: the normalized query and the stripped question
      contain one another. */
  function QuestionBonus(norm: string, question: string): (b: nat)
    ensures b == 0 || b == 5
  {
    var sq := StripGlyph(question);
    if Contains(norm, sq) || Contains(sq, norm) then 5 else 0
  }

  /** The score of one record against a normalized query and its tokens. */
  function Score(norm: string, tokens: seq<string>, item: QAItem): (r: nat)
    ensures r <= 3 * |item.keywords| + 5
    ensures r >= QuestionBonus(norm, item.question)
  {
    KeywordScore(norm, tokens, item.keywords) + QuestionBonus(norm, item.question)
  }

  /** The score of every corpus record against query `q`, in corpus order. */
  function Scores(corpus: seq<QAItem>, q: string): (r: seq<nat>)
    ensures |r| == |corpus|
  {
    var norm := Normalize(q);
    var tokens := Tokens(norm);
    seq(|corpus|, i requires 0 <= i < |corpus| => Score(norm, tokens, corpus[i]))
  }

  /** Index `i` holds the highest score, that score is positive, and every
      earlier index scores strictly less: the record the matcher returns. */
  predicate IsFirstBest(scores: seq<nat>, i: nat) {
    && i < |scores|
    && scores[i] > 0
    && (forall j | 0 <= j < |scores| :: scores[j] <= scores[i])
    && (forall j | 0 <= j < i :: scores[j] < scores[i])
  }

  /** State of the scoring loop: the best index so far (none while nothing
      scored above 0) and the best score so far. */
  datatype Best = Best(index: Option<nat>, score: nat)

  /** The scoring loop after visiting the first `n` records. The best entry
      is replaced only by a strictly higher score, so the earliest of equal
      scores is kept. */
  function Scan(scores: seq<nat>, n: nat): (b: Best)
    requires n <= |scores|
    ensures forall j | 0 <= j < n :: scores[j] <= b.score
    ensures b.index.None? <==> b.score == 0
    ensures b.index.Some? ==> b.index.value < n && scores[b.index.value] == b.score
    ensures b.index.Some? ==> forall j | 0 <= j < b.index.value :: scores[j] < b.score
  {
    if n == 0 then Best(None, 0)
    else
      var prev := Scan(scores, n - 1);
      if scores[n - 1] > prev.score then Best(Some(n - 1), scores[n - 1]) else prev
  }

  /** The outcome of the scoring loop over a whole score sequence. */
  function BestIndex(scores: seq<nat>): (r: Option<nat>)
    ensures r.None? <==> forall i | 0 <= i < |scores| :: scores[i] == 0
    ensures r.Some? ==> IsFirstBest(scores, r.value)
  {
    Scan(scores, |scores|).index
  }

  /** The corpus index of the best match for `q`, if any record scores above 0. */
  function FindBestMatchIndex(corpus: seq<QAItem>, q: string): (r: Option<nat>)
    ensures r.None? <==> forall i | 0 <= i < |corpus| :: Scores(corpus, q)[i] == 0
    ensures r.Some? ==> IsFirstBest(Scores(corpus, q), r.value)
  {
    BestIndex(Scores(corpus, q))
  }

  /** `findBestMatch`: the best-matching record, or none when every record scores 0. */
  function FindBestMatch(corpus: seq<QAItem>, q: string): (r: Option<QAItem>)
    ensures r.None? <==> forall i | 0 <= i < |corpus| :: Scores(corpus, q)[i] == 0
    ensures r.Some? ==> exists i: nat | IsFirstBest(Scores(corpus, q), i) :: r.value == corpus[i]
  {
    match FindBestMatchIndex(corpus, q)
    case None => None
    case Some(i) => assert IsFirstBest(Scores(corpus, q), i); Some(corpus[i])
  }

  /** At most one index is the first best. */
  lemma FirstBestUnique(scores: seq<nat>, i: nat, j: nat)
    requires IsFirstBest(scores, i) && IsFirstBest(scores, j)
    ensures i == j
  {
  }

  /** Whenever some record is the first best, the matcher returns it: with
      the ensures of FindBestMatch this pins the result down exactly. */
  lemma FindBestMatchReturnsFirstBest(corpus: seq<QAItem>, q: string, i: nat)
    requires IsFirstBest(Scores(corpus, q), i)
    ensures FindBestMatchIndex(corpus, q) == Some(i)
    ensures FindBestMatch(corpus, q) == Some(corpus[i])
  {
    var r := FindBestMatchIndex(corpus, q);
    FirstBestUnique(Scores(corpus, q), i, r.value);
  }

  /** Ties go to the earlier record: a later record with an equal score is
      never the result. */
  lemma TieGoesToEarlier(corpus: seq<QAItem>, q: string, i: nat, j: nat)
    requires i < j < |corpus| && Scores(corpus, q)[i] == Scores(corpus, q)[j]
    ensures FindBestMatchIndex(corpus, q) != Some(j)
  {
  }

  /** The matcher depends on the normalized query only. */
  lemma MatchIgnoresCaseAndPadding(corpus: seq<QAItem>, q1: string, q2: string)
    requires Normalize(q1) == Normalize(q2)
    ensures FindBestMatch(corpus, q1) == FindBestMatch(corpus, q2)
  {
  }

  // ---------------------------------------------------------------------
  // Properties of the score
  // ---------------------------------------------------------------------

  /** The keyword score is additive over the keyword sequence. */
  lemma {:induction false} KeywordScoreAppend(norm: string, tokens: seq<string>, a: seq<string>, b: seq<string>)
    ensures KeywordScore(norm, tokens, a + b) == KeywordScore(norm, tokens, a) + KeywordScore(norm, tokens, b)
    decreases |a|
  {
    if |a| == 0 {
      assert a + b == b;
    } else {
      assert (a + b)[1..] == a[1..] + b;
      KeywordScoreAppend(norm, tokens, a[1..], b);
    }
  }

  /** Every keyword occurrence contributes its own points to the score. */
  lemma {:induction false} KeywordScoreCountsEach(norm: string, tokens: seq<string>, kws: seq<string>, i: nat)
    requires i < |kws|
    ensures KeywordScore(norm, tokens, kws) >= KeywordPoints(norm, tokens, kws[i])
    decreases |kws|
  {
    if i > 0 {
      KeywordScoreCountsEach(norm, tokens, kws[1..], i - 1);
    }
  }

  /** A keyword listed twice scores twice. */
  lemma RepeatedKeywordCountsTwice(norm: string, tokens: seq<string>, kws: seq<string>, i: nat, j: nat)
    requires i < j < |kws| && kws[i] == kws[j]
    ensures KeywordScore(norm, tokens, kws) >= 2 * KeywordPoints(norm, tokens, kws[i])
  {
    assert kws == kws[..j] + kws[j..];
    KeywordScoreAppend(norm, tokens, kws[..j], kws[j..]);
    KeywordScoreCountsEach(norm, tokens, kws[..j], i);
    KeywordScoreCountsEach(norm, tokens, kws[j..], 0);
  }

  /** A record with a keyword that the normalized query contains scores at
      least 2 on top of its question bonus. */
  lemma KeywordHitScore(corpus: seq<QAItem>, q: string, i: nat, k: nat)
    requires i < |corpus| && k < |corpus[i].keywords|
    requires Contains(Normalize(q), ToLower(corpus[i].keywords[k]))
    ensures Scores(corpus, q)[i] >= 2 + QuestionBonus(Normalize(q), corpus[i].question)
  {
    var norm := Normalize(q);
    KeywordScoreCountsEach(norm, Tokens(norm), corpus[i].keywords, k);
  }

  // ---------------------------------------------------------------------
  // Glyph stripping
  // ---------------------------------------------------------------------

  /** A glyph (a non-empty run without whitespace) and one whitespace
      character are removed; the rest is only lower-cased. */
  lemma StripGlyphOfGlyphed(glyph: string, sp: char, rest: string)
    requires glyph != [] && NoSpace(glyph) && IsSpace(sp)
    ensures StripGlyph(glyph + [sp] + rest) == ToLower(rest)
  {
    var q := glyph + [sp] + rest;
    assert q[|glyph|] == sp;
    assert SpaceFrom(q, 0) == |glyph|;
    assert q[|glyph| + 1..] == rest;
  }

  /** A question that starts with whitespace, or has none, keeps all its
      characters. */
  lemma StripGlyphUnchanged(question: string)
    requires question == [] || IsSpace(question[0]) || NoSpace(question)
    ensures StripGlyph(question) == ToLower(question)
  {
  }

  // ---------------------------------------------------------------------
  // When the matcher finds something
  // ---------------------------------------------------------------------

  /** A query containing some keyword of some record has a match. */
  lemma MatchOnKeyword(corpus: seq<QAItem>, q: string, i: nat, k: nat)
    requires i < |corpus| && k < |corpus[i].keywords|
    requires Contains(Normalize(q), ToLower(corpus[i].keywords[k]))
    ensures FindBestMatch(corpus, q).Some?
  {
    var norm := Normalize(q);
    KeywordScoreCountsEach(norm, Tokens(norm), corpus[i].keywords, k);
    assert Scores(corpus, q)[i] > 0;
  }

  /** A query containing some record's stripped question has a match. */
  lemma MatchOnQuestion(corpus: seq<QAItem>, q: string, i: nat)
    requires i < |corpus|
    requires Contains(Normalize(q), StripGlyph(corpus[i].question))
    ensures FindBestMatch(corpus, q).Some?
  {
    assert Scores(corpus, q)[i] > 0;
  }

  /** A blank query scores exactly 5 on every record whose keywords are all
      non-empty: the empty string is contained in every stripped question,
      and no keyword or token can hit. */
  lemma BlankScore(corpus: seq<QAItem>, q: string, i: nat)
    requires AllSpace(q) && i < |corpus| && NonEmptyKeywords(corpus)
    ensures Scores(corpus, q)[i] == 5
  {
    var norm := Normalize(q);
    TrimEmptyIff(ToLower(q));
    assert norm == [];
    var tokens := Tokens(norm);
    assert Split(norm) == [[]];
    assert tokens == [];
    ContainsEmpty(StripGlyph(corpus[i].question));
    BlankKeywordScore(corpus[i].keywords);
  }

  /** No non-empty keyword scores against the blank query. */
  lemma {:induction false} BlankKeywordScore(kws: seq<string>)
    requires forall k | 0 <= k < |kws| :: kws[k] != []
    ensures KeywordScore([], [], kws) == 0
    decreases |kws|
  {
    if |kws| > 0 {
      ContainedInEmpty(ToLower(kws[0]));
      BlankKeywordScore(kws[1..]);
    }
  }

  /** A blank (whitespace-only) query is not rejected by the matcher: every
      record earns the 5-point question bonus, so the first record wins. */
  lemma BlankMatchesFirst(corpus: seq<QAItem>, q: string)
    requires AllSpace(q) && |corpus| > 0 && NonEmptyKeywords(corpus)
    ensures FindBestMatchIndex(corpus, q) == Some(0)
    ensures FindBestMatch(corpus, q) == Some(corpus[0])
  {
    forall i | 0 <= i < |corpus| ensures Scores(corpus, q)[i] == 5 {
      BlankScore(corpus, q, i);
    }
    FindBestMatchReturnsFirstBest(corpus, q, 0);
  }

  // ---------------------------------------------------------------------
  // Suggestion selector (getSuggestedQuestions)
  // ---------------------------------------------------------------------

  /** The indices below `n` that are not excluded, in increasing order. */
  function Available(n: nat, excluded: set<nat>): (r: seq<nat>)
    ensures forall i: nat :: i in r <==> i < n && i !in excluded
    ensures forall a, b | 0 <= a < b < |r| :: r[a] < r[b]
    ensures |r| <= n
  {
    if n == 0 then []
    else
      var prev := Available(n - 1, excluded);
      assert forall a | 0 <= a < |prev| :: prev[a] in prev;
      prev + (if n - 1 in excluded then [] else [n - 1])
  }

  /** No value occurs twice. */
  predicate Distinct(xs: seq<nat>) {
    forall a, b | 0 <= a < b < |xs| :: xs[a] != xs[b]
  }

  /** `perm` reorders the positions `0 .. n-1`: the shuffle of a copy. */
  predicate IsPermutation(perm: seq<nat>, n: nat) {
    |perm| == n && Distinct(perm) && forall a | 0 <= a < n :: perm[a] < n
  }

  /** The corpus indices `getSuggestedQuestions` returns: the available
      indices reordered by `perm`, cut to `count`. */
  function SuggestedIndices(n: nat, excluded: set<nat>, count: nat, perm: seq<nat>): (r: seq<nat>)
    requires IsPermutation(perm, |Available(n, excluded)|)
    ensures |r| == Min(count, |Available(n, excluded)|)
    ensures forall k | 0 <= k < |r| :: r[k] < n && r[k] !in excluded
    ensures Distinct(r)
  {
    var avail := Available(n, excluded);
    var shuffled := seq(|avail|, k requires 0 <= k < |avail| => avail[perm[k]]);
    assert Distinct(shuffled) by {
      forall a, b | 0 <= a < b < |shuffled| ensures shuffled[a] != shuffled[b] {
        assert perm[a] != perm[b];
      }
    }
    var r := shuffled[..Min(count, |avail|)];
    assert forall k | 0 <= k < |r| :: r[k] == shuffled[k] && r[k] in avail;
    r
  }

  /** `getSuggestedQuestions`: up to `count` records whose indices are not
      excluded, in the order the shuffle `perm` gives them. The count is 3
      when the caller names none. */
  function GetSuggestedQuestions(corpus: seq<QAItem>, excluded: set<nat>, count: nat := 3, perm: seq<nat>): (r: seq<QAItem>)
    requires IsPermutation(perm, |Available(|corpus|, excluded)|)
    ensures |r| == Min(count, |Available(|corpus|, excluded)|)
    ensures forall k | 0 <= k < |r| :: exists i | 0 <= i < |corpus| && i !in excluded :: r[k] == corpus[i]
  {
    var ix := SuggestedIndices(|corpus|, excluded, count, perm);
    seq(|ix|, k requires 0 <= k < |ix| => corpus[ix[k]])
  }

  /** The indices below `n`. */
  ghost function Below(n: nat): (r: set<nat>)
    ensures forall i: nat :: i in r <==> i < n
    ensures |r| == n
  {
    if n == 0 then {} else Below(n - 1) + {n - 1}
  }

  /** A subset is no larger than its superset. */
  lemma {:induction false} SubsetCard(a: set<nat>, b: set<nat>)
    requires a <= b
    ensures |a| <= |b|
    decreases |a|
  {
    if a != {} {
      var x :| x in a;
      SubsetCard(a - {x}, b - {x});
    }
  }

  /** The values of a sequence. */
  ghost function Values(xs: seq<nat>): set<nat> {
    set a | 0 <= a < |xs| :: xs[a]
  }

  lemma {:induction false} DistinctValuesCard(xs: seq<nat>)
    requires Distinct(xs)
    ensures |Values(xs)| == |xs|
    decreases |xs|
  {
    if |xs| > 0 {
      var init := xs[..|xs| - 1];
      DistinctValuesCard(init);
      assert Values(xs) == Values(init) + {xs[|xs| - 1]};
      assert xs[|xs| - 1] !in Values(init);
    }
  }

  /** A permutation of `0 .. n-1` takes every value below `n`. */
  lemma PermutationOnto(perm: seq<nat>, n: nat)
    requires IsPermutation(perm, n)
    ensures forall j | 0 <= j < n :: j in perm
  {
    DistinctValuesCard(perm);
    forall j | 0 <= j < n ensures j in perm {
      if j !in Values(perm) {
        SubsetCard(Values(perm), Below(n) - {j});
      } else {
        var a :| 0 <= a < |perm| && perm[a] == j;
      }
    }
  }

  /** The excluded indices below `n`. */
  ghost function ExcludedBelow(n: nat, excluded: set<nat>): set<nat> {
    set i: nat | i in excluded && i < n
  }

  /** Growing the bound by one adds that index exactly when it is excluded. */
  lemma ExcludedBelowStep(n: nat, excluded: set<nat>)
    requires n > 0
    ensures n - 1 in excluded ==> ExcludedBelow(n, excluded) == ExcludedBelow(n - 1, excluded) + {n - 1}
    ensures n - 1 !in excluded ==> ExcludedBelow(n, excluded) == ExcludedBelow(n - 1, excluded)
    ensures n - 1 !in ExcludedBelow(n - 1, excluded)
  {
  }

  /** The number of available indices is `n` less the excluded indices below `n`. */
  lemma {:induction false} AvailableCount(n: nat, excluded: set<nat>)
    ensures |Available(n, excluded)| == n - |ExcludedBelow(n, excluded)|
  {
    if n > 0 {
      AvailableCount(n - 1, excluded);
      ExcludedBelowStep(n, excluded);
    } else {
      assert ExcludedBelow(0, excluded) == {};
    }
  }

  /** When every index is excluded there is nothing to suggest, whatever the count. */
  lemma AllExcludedGivesEmpty(corpus: seq<QAItem>, excluded: set<nat>, count: nat, perm: seq<nat>)
    requires forall i | 0 <= i < |corpus| :: i in excluded
    requires IsPermutation(perm, |Available(|corpus|, excluded)|)
    ensures GetSuggestedQuestions(corpus, excluded, count, perm) == []
  {
    assert |Available(|corpus|, excluded)| == 0 by {
      if |Available(|corpus|, excluded)| > 0 {
        assert Available(|corpus|, excluded)[0] in Available(|corpus|, excluded);
      }
    }
  }

  /** Position `k` of the suggestions holds the available index the shuffle puts there. */
  lemma SuggestedIndexAt(n: nat, excluded: set<nat>, count: nat, perm: seq<nat>, k: nat)
    requires IsPermutation(perm, |Available(n, excluded)|)
    requires k < |SuggestedIndices(n, excluded, count, perm)|
    ensures SuggestedIndices(n, excluded, count, perm)[k] == Available(n, excluded)[perm[k]]
  {
  }

  /** With a count that reaches the number of available records, every
      available index is suggested: the shuffle only reorders. */
  lemma SuggestionsCoverAvailable(n: nat, excluded: set<nat>, count: nat, perm: seq<nat>)
    requires IsPermutation(perm, |Available(n, excluded)|)
    requires count >= |Available(n, excluded)|
    ensures forall i: nat | i < n && i !in excluded :: i in SuggestedIndices(n, excluded, count, perm)
  {
    var avail := Available(n, excluded);
    var r := SuggestedIndices(n, excluded, count, perm);
    PermutationOnto(perm, |avail|);
    forall i: nat | i < n && i !in excluded ensures i in r {
      assert i in avail;
      var p :| 0 <= p < |avail| && avail[p] == i;
      assert p in perm;
      var k :| 0 <= k < |perm| && perm[k] == p;
      SuggestedIndexAt(n, excluded, count, perm, k);
    }
  }

  /** Over a corpus with distinct questions the suggestions are distinct records. */
  lemma SuggestionsDistinct(corpus: seq<QAItem>, excluded: set<nat>, count: nat, perm: seq<nat>)
    requires DistinctQuestions(corpus)
    requires IsPermutation(perm, |Available(|corpus|, excluded)|)
    ensures forall a, b | 0 <= a < b < |GetSuggestedQuestions(corpus, excluded, count, perm)| ::
      GetSuggestedQuestions(corpus, excluded, count, perm)[a].question
        != GetSuggestedQuestions(corpus, excluded, count, perm)[b].question
  {
    var ix := SuggestedIndices(|corpus|, excluded, count, perm);
    var r := GetSuggestedQuestions(corpus, excluded, count, perm);
    forall a, b | 0 <= a < b < |r| ensures r[a].question != r[b].question {
      assert r[a] == corpus[ix[a]] && r[b] == corpus[ix[b]];
      assert ix[a] != ix[b];
      if ix[a] < ix[b] {
        assert corpus[ix[a]].question != corpus[ix[b]].question;
      } else {
        assert corpus[ix[b]].question != corpus[ix[a]].question;
      }
    }
  }
}

=== FILE: strings.dfy ===
/** Character and string helpers shared by the matcher, the client-side
    fallback matcher and the config parser.

    Strings are sequences of Unicode scalar values. Case folding covers the
    ASCII letters only, and the whitespace class is a fixed ASCII set; glyphs
    such as emoji are ordinary non-space characters. */
module Strings {

  /** The whitespace characters recognised by trimming and splitting: the
      space and the control characters tab, line feed, vertical tab, form
      feed and carriage return (U+0009 to U+000D). */
  predicate IsSpace(c: char) {
    c == ' ' || '\t' <= c <= '\r'
  }

  predicate IsUpper(c: char) {
    'A' <= c <= 'Z'
  }

  predicate NoSpace(s: string) {
    forall k | 0 <= k < |s| :: !IsSpace(s[k])
  }

  predicate AllSpace(s: string) {
    forall k | 0 <= k < |s| :: IsSpace(s[k])
  }

  /** A string that neither starts nor ends with whitespace. */
  predicate IsTrimmed(s: string) {
    s == [] || (!IsSpace(s[0]) && !IsSpace(s[|s| - 1]))
  }

  function LowerChar(c: char): (r: char)
    ensures !IsUpper(r)
    ensures IsUpper(c) ==> r == (c as int + 32) as char
    ensures !IsUpper(c) ==> r == c
    ensures IsSpace(r) <==> IsSpace(c)
  {
    if IsUpper(c) then (c as int + 32) as char else c
  }

  /** ASCII lower-casing, character by character. */
  function ToLower(s: string): (r: string)
    ensures |r| == |s|
    ensures forall i | 0 <= i < |s| :: !IsUpper(r[i]) && (IsSpace(r[i]) <==> IsSpace(s[i]))
    ensures forall i | 0 <= i < |s| :: !IsUpper(s[i]) ==> r[i] == s[i]
    ensures forall i | 0 <= i < |s| :: IsUpper(s[i]) ==> r[i] == (s[i] as int + 32) as char
  {
    seq(|s|, i requires 0 <= i < |s| => LowerChar(s[i]))
  }

  /** Lower-casing a string that is already lower case changes nothing. */
  lemma ToLowerIdempotent(s: string)
    ensures ToLower(ToLower(s)) == ToLower(s)
  {
  }

  /** Lower-casing distributes over concatenation. */
  lemma ToLowerConcat(a: string, b: string)
    ensures ToLower(a + b) == ToLower(a) + ToLower(b)
  {
  }

  /** The end of `s[lo..hi]` once trailing whitespace is dropped, never going
      below `lo`. */
  function TrimEndIndex(s: string, lo: nat, hi: nat): (j: nat)
    requires lo <= hi <= |s|
    ensures lo <= j <= hi
    ensures forall k | j <= k < hi :: IsSpace(s[k])
    ensures j > lo ==> !IsSpace(s[j - 1])
    decreases hi
  {
    if hi > lo && IsSpace(s[hi - 1]) then TrimEndIndex(s, lo, hi - 1) else hi
  }

  /** `s` is `pre + t + post` where `pre` has length `k` and both `pre` and
      `post` are whitespace only. */
  predicate PaddedBy(s: string, t: string, k: nat) {
    && k + |t| <= |s|
    && s[k..k + |t|] == t
    && (forall i | 0 <= i < k :: IsSpace(s[i]))
    && (forall i | k + |t| <= i < |s| :: IsSpace(s[i]))
  }

  /** JavaScript's `s.trim()`: removal of leading and trailing whitespace.
      What remains starts at the first non-whitespace character. */
  function Trim(s: string): (r: string)
    ensures IsTrimmed(r)
    ensures PaddedBy(s, r, NonSpaceFrom(s, 0))
  {
    var a := NonSpaceFrom(s, 0);
    s[a..TrimEndIndex(s, a, |s|)]
  }

  /** JavaScript's `s.toLowerCase().trim()`, the form in which both chat
      matchers compare queries. */
  function Normalize(q: string): (r: string)
    ensures IsTrimmed(r)
    ensures forall k | 0 <= k < |r| :: !IsUpper(r[k])
    ensures PaddedBy(ToLower(q), r, NonSpaceFrom(ToLower(q), 0))
  {
    Trim(ToLower(q))
  }

  /** Two trimmed, non-empty cores of the same padded string coincide. */
  lemma PaddedCoreUnique(s: string, t: string, k: nat, u: string, j: nat)
    requires PaddedBy(s, t, k) && IsTrimmed(t) && t != []
    requires PaddedBy(s, u, j) && IsTrimmed(u) && u != []
    ensures k == j && t == u
  {
    assert s[k] == t[0] && s[k + |t| - 1] == t[|t| - 1] by {
      assert s[k..k + |t|][0] == s[k];
      assert s[k..k + |t|][|t| - 1] == s[k + |t| - 1];
    }
    assert s[j] == u[0] && s[j + |u| - 1] == u[|u| - 1] by {
      assert s[j..j + |u|][0] == s[j];
      assert s[j..j + |u|][|u| - 1] == s[j + |u| - 1];
    }
  }

  /** Trim is the only way to strip whitespace padding down to a trimmed core:
      any trimmed `t` that `s` pads is `Trim(s)`. */
  lemma {:induction false} TrimUnique(s: string, t: string, k: nat)
    requires PaddedBy(s, t, k) && IsTrimmed(t)
    ensures Trim(s) == t
  {
    var r := Trim(s);
    if t != [] && r != [] {
      PaddedCoreUnique(s, t, k, r, NonSpaceFrom(s, 0));
    }
  }

  /** Trimming is idempotent. */
  lemma TrimIdempotent(s: string)
    ensures Trim(Trim(s)) == Trim(s)
  {
    var t := Trim(s);
    assert PaddedBy(t, t, 0);
    TrimUnique(t, t, 0);
  }

  /** A string trims to nothing exactly when it is all whitespace. */
  lemma TrimEmptyIff(s: string)
    ensures Trim(s) == [] <==> AllSpace(s)
  {
  }

  /** `t` occurs in `s` starting at position `i`. */
  predicate OccursAt(s: string, t: string, i: int) {
    0 <= i && i + |t| <= |s| && s[i..i + |t|] == t
  }

  /** JavaScript's `s.includes(t)`: `t` is a contiguous piece of `s`. */
  function Contains(s: string, t: string): (r: bool)
    ensures t <= s ==> r
    ensures r ==> |t| <= |s|
    decreases |s|
  {
    t <= s || (|s| > 0 && Contains(s[1..], t))
  }

  /** Contains agrees with the positional definition of a substring. */
  lemma {:induction false} ContainsIff(s: string, t: string)
    ensures Contains(s, t) <==> exists i :: OccursAt(s, t, i)
  {
    if t <= s {
      assert s[0..|t|] == t;
      assert OccursAt(s, t, 0);
    } else if |s| > 0 {
      ContainsIff(s[1..], t);
      if Contains(s[1..], t) {
        var i :| OccursAt(s[1..], t, i);
        assert s[1..][i..i + |t|] == s[i + 1..i + 1 + |t|];
        assert OccursAt(s, t, i + 1);
      }
      if exists i :: OccursAt(s, t, i) {
        var i :| OccursAt(s, t, i);
        assert s[1..][i - 1..i - 1 + |t|] == s[i..i + |t|];
        assert OccursAt(s[1..], t, i - 1);
      }
    }
  }

  /** Every string contains the empty string, so `"".includes("")` holds. */
  lemma ContainsEmpty(s: string)
    ensures Contains(s, [])
  {
    assert [] <= s;
  }

  /** The empty string contains only the empty string. */
  lemma ContainedInEmpty(t: string)
    ensures Contains([], t) <==> t == []
  {
  }

  /** A piece of `s` at a known position is contained in `s`. */
  lemma ContainsAt(s: string, t: string, i: int)
    requires OccursAt(s, t, i)
    ensures Contains(s, t)
  {
    ContainsIff(s, t);
  }

  /** A string contains itself, and so does any extension of it on both sides. */
  lemma ContainsInfix(a: string, t: string, b: string)
    ensures Contains(a + t + b, t)
  {
    assert (a + t + b)[|a|..|a| + |t|] == t;
    ContainsAt(a + t + b, t, |a|);
  }

  /** Containment is transitive. */
  lemma ContainsTrans(a: string, b: string, c: string)
    requires Contains(a, b) && Contains(b, c)
    ensures Contains(a, c)
  {
    ContainsIff(a, b);
    ContainsIff(b, c);
    var i :| OccursAt(a, b, i);
    var j :| OccursAt(b, c, j);
    forall t | 0 <= t < |c|
      ensures a[i + j + t] == c[t]
    {
      assert a[i..i + |b|][j + t] == b[j + t];
      assert b[j..j + |c|][t] == c[t];
    }
    assert a[i + j..i + j + |c|] == c;
    ContainsAt(a, c, i + j);
  }

  /** Index of the first whitespace character at or after `i`, or `|s|`. */
  function SpaceFrom(s: string, i: nat): (j: nat)
    requires i <= |s|
    ensures i <= j <= |s|
    ensures forall k | i <= k < j :: !IsSpace(s[k])
    ensures j < |s| ==> IsSpace(s[j])
    decreases |s| - i
  {
    if i == |s| || IsSpace(s[i]) then i else SpaceFrom(s, i + 1)
  }

  /** Index of the first non-whitespace character at or after `i`, or `|s|`. */
  function NonSpaceFrom(s: string, i: nat): (j: nat)
    requires i <= |s|
    ensures i <= j <= |s|
    ensures forall k | i <= k < j :: IsSpace(s[k])
    ensures j < |s| ==> !IsSpace(s[j])
    decreases |s| - i
  {
    if i == |s| || !IsSpace(s[i]) then i else NonSpaceFrom(s, i + 1)
  }

  /** JavaScript's `s.split(/\s+/)`: the pieces between maximal whitespace
      runs. A leading or trailing run yields an empty first or last piece,
      and the empty string yields one empty piece. */
  function Split(s: string): (r: seq<string>)
    ensures |r| >= 1
    ensures forall k | 0 <= k < |r| :: NoSpace(r[k])
    decreases |s|
  {
    var i := SpaceFrom(s, 0);
    if i == |s| then [s]
    else [s[..i]] + Split(s[NonSpaceFrom(s, i)..])
  }

  /** The concatenation of a sequence of strings. */
  function Concat(ss: seq<string>): string {
    if |ss| == 0 then [] else ss[0] + Concat(ss[1..])
  }

  /** The non-whitespace characters of `s`, in order. */
  function RemoveSpaces(s: string): string {
    if |s| == 0 then []
    else (if IsSpace(s[0]) then [] else [s[0]]) + RemoveSpaces(s[1..])
  }

  lemma {:induction false} RemoveSpacesConcat(a: string, b: string)
    ensures RemoveSpaces(a + b) == RemoveSpaces(a) + RemoveSpaces(b)
    decreases |a|
  {
    if |a| == 0 {
      assert a + b == b;
    } else {
      assert (a + b)[1..] == a[1..] + b;
      RemoveSpacesConcat(a[1..], b);
    }
  }

  lemma {:induction false} RemoveSpacesOfNoSpace(s: string)
    requires NoSpace(s)
    ensures RemoveSpaces(s) == s
    decreases |s|
  {
    if |s| > 0 {
      RemoveSpacesOfNoSpace(s[1..]);
    }
  }

  lemma {:induction false} RemoveSpacesOfAllSpace(s: string)
    requires AllSpace(s)
    ensures RemoveSpaces(s) == []
    decreases |s|
  {
    if |s| > 0 {
      RemoveSpacesOfAllSpace(s[1..]);
    }
  }

  /** The non-whitespace characters of a word, a whitespace run and a tail. */
  lemma RemoveSpacesOfPiece(pre: string, gap: string, post: string)
    requires NoSpace(pre) && AllSpace(gap)
    ensures RemoveSpaces(pre + gap + post) == pre + RemoveSpaces(post)
  {
    calc {
      RemoveSpaces(pre + gap + post);
      { RemoveSpacesConcat(pre + gap, post); }
      RemoveSpaces(pre + gap) + RemoveSpaces(post);
      { RemoveSpacesConcat(pre, gap); RemoveSpacesOfNoSpace(pre); RemoveSpacesOfAllSpace(gap); }
      pre + [] + RemoveSpaces(post);
    }
    assert pre + [] == pre;
  }

  /** Splitting loses exactly the whitespace: gluing the pieces back together
      gives the non-whitespace characters of the input, in order. */
  lemma {:induction false} SplitKeepsContent(s: string)
    ensures Concat(Split(s)) == RemoveSpaces(s)
    decreases |s|
  {
    var i := SpaceFrom(s, 0);
    if i == |s| {
      RemoveSpacesOfNoSpace(s);
      assert Concat([s]) == s + Concat([]);
    } else {
      var j := NonSpaceFrom(s, i);
      var pre, gap, post := s[..i], s[i..j], s[j..];
      assert s == pre + gap + post;
      var rest := Split(post);
      assert Concat([pre] + rest) == pre + Concat(rest) by {
        assert ([pre] + rest)[1..] == rest;
      }
      SplitKeepsContent(post);
      RemoveSpacesOfPiece(pre, gap, post);
    }
  }

  /** A trimmed, non-empty string splits into non-empty pieces. */
  lemma {:induction false} SplitTrimmedHasNoEmptyPiece(s: string)
    requires s != [] && IsTrimmed(s)
    ensures forall k | 0 <= k < |Split(s)| :: Split(s)[k] != []
    decreases |s|
  {
    var i := SpaceFrom(s, 0);
    if i < |s| {
      var j := NonSpaceFrom(s, i);
      assert j < |s|;
      assert s[j..][|s[j..]| - 1] == s[|s| - 1];
      SplitTrimmedHasNoEmptyPiece(s[j..]);
      var r := Split(s);
      assert r == [s[..i]] + Split(s[j..]);
      forall k | 0 <= k < |r| ensures r[k] != [] {
        if k > 0 { assert r[k] == Split(s[j..])[k - 1]; }
      }
    }
  }

  /** JavaScript's `xs.join(sep)`. */
  function Join(xs: seq<string>, sep: string): (r: string)
    ensures xs == [] ==> r == []
    ensures |xs| > 0 ==> xs[0] <= r
    ensures |xs| == 1 ==> r == xs[0]
    decreases |xs|
  {
    if |xs| == 0 then []
    else if |xs| == 1 then xs[0]
    else xs[0] + sep + Join(xs[1..], sep)
  }

  /** The joined string is as long as the parts plus one separator between
      each neighbouring pair. */
  lemma {:induction false} JoinLength(xs: seq<string>, sep: string)
    requires |xs| > 0
    ensures |Join(xs, sep)| == |Concat(xs)| + (|xs| - 1) * |sep|
    decreases |xs|
  {
    if |xs| > 1 {
      JoinLength(xs[1..], sep);
      assert Join(xs, sep) == xs[0] + sep + Join(xs[1..], sep);
      assert |Join(xs, sep)| == |xs[0]| + |sep| + |Join(xs[1..], sep)|;
    }
  }

  /** Joining one more part adds one separator and then the part, so with
      the empty and one-part cases this fixes `join` completely. */
  lemma {:induction false} JoinAppend(xs: seq<string>, x: string, sep: string)
    requires |xs| > 0
    ensures Join(xs + [x], sep) == Join(xs, sep) + sep + x
    decreases |xs|
  {
    if |xs| == 1 {
      assert xs + [x] == [xs[0], x];
      assert [xs[0], x][1..] == [x];
    } else {
      assert (xs + [x])[0] == xs[0];
      assert (xs + [x])[1..] == xs[1..] + [x];
      JoinAppend(xs[1..], x, sep);
    }
  }

  /** Text in front of a string keeps every piece the string contains. */
  lemma {:induction false} ContainsExtendLeft(a: string, b: string, t: string)
    requires Contains(b, t)
    ensures Contains(a + b, t)
    decreases |a|
  {
    if |a| > 0 {
      assert (a + b)[1..] == a[1..] + b;
      ContainsExtendLeft(a[1..], b, t);
    } else {
      assert a + b == b;
    }
  }

  /** Every part occurs in the joined string. */
  lemma {:induction false} JoinContainsParts(xs: seq<string>, sep: string, k: nat)
    requires k < |xs|
    ensures Contains(Join(xs, sep), xs[k])
    decreases |xs|
  {
    if k > 0 {
      JoinContainsParts(xs[1..], sep, k - 1);
      var pre := xs[0] + sep;
      assert Join(xs, sep) == pre + Join(xs[1..], sep);
      ContainsExtendLeft(pre, Join(xs[1..], sep), xs[k]);
    }
  }

  /** Words without whitespace joined by single spaces split back into the
      same words. */
  lemma {:induction false} SplitJoinRoundTrip(ws: seq<string>)
    requires |ws| > 0
    requires forall k | 0 <= k < |ws| :: ws[k] != [] && NoSpace(ws[k])
    ensures Split(Join(ws, " ")) == ws
    decreases |ws|
  {
    var s := Join(ws, " ");
    if |ws| == 1 {
      assert SpaceFrom(s, 0) == |s|;
    } else {
      var rest := Join(ws[1..], " ");
      assert s == ws[0] + " " + rest;
      var w := |ws[0]|;
      assert s[w] == ' ';
      assert forall k | 0 <= k < w :: s[k] == ws[0][k];
      assert SpaceFrom(s, 0) == w;
      assert rest[0] == ws[1][0] by {
        if |ws| == 2 { } else { assert rest == ws[1] + " " + Join(ws[2..], " "); }
      }
      assert s[w + 1] == rest[0];
      assert NonSpaceFrom(s, w) == w + 1;
      assert s[..w] == ws[0];
      assert s[w + 1..] == rest;
      SplitJoinRoundTrip(ws[1..]);
    }
  }
}
